=== FILE: README.md ===
# nomad_kor backend core, modelled in Dafny

nomad_kor is a Django backend for finding cafes to work from and for
networking boards. This project models four parts of it as pure Dafny
functions over immutable tables, and proves properties about them:

- **Cafe ratings** (`main/views/rating.py`, `add_rating` in
  `main/views/place.py`). A user can submit, update or delete their one star
  rating of a cafe. Each write recomputes the cafe's stored average, and the
  average can be read back. The reviews of a place (`ReviewListCreateView`
  and `ReviewDetailView` in `main/views/place.py`) are modelled alongside.
- **Comments** (`main/views/comment.py`). A route names a board, and the
  post is resolved from that board. The model covers listing and creating
  comments (replies, private comments, anonymous signatures), the detail
  lookup, and the object permission that says who may read or modify a
  comment.
- **Proximity search** (`main/views/cafe.py`). The five nearest cafes within
  1 km of a user, the five nearest within 5 km of the midpoint between two
  users, and the lookup of one cafe by name.
- **Validators.** The sign-up checks (`main/views/signup.py`), the profile
  field validators (`main/serializers/profile.py`), and the board post views
  (`main/views/post.py`).

Modules: `Common` (tables, Python truthiness, `int()`/`float()`), `Ratings`,
`Reviews`, `Proximity`, `Posts`, `Comments`, `Signup`, `ProfileValidation`.

Modelling conventions:

- **Tables.** A table with auto-increment ids is a `seq<Option<T>>`. Ids
  start at 1, so position 0 never holds a row. A new row's id is the
  table's length, and a deleted row becomes `None`.
- **Serializers.** The create and update views validate the body with the
  model serializer before they save. A text field must be present, not
  blank, and free of NUL characters; "filled in" below means all three. It
  is stripped of surrounding whitespace (`Common.Trim`), and its length bound
  applies to the stripped text. All failing fields are reported
  together.
- **The rating store.** It is a sequence of ratings, at most one per
  (user, cafe) pair. Next to it is a map from every known cafe to its stored
  average.
- **Request values.** A request value is `Absent`, a JSON number or text.
  Python truthiness and `int()` are spelled out. `float()` of text is a
  parameter.
- **Distance.** Great-circle distance is an uninterpreted function. The
  search properties therefore hold for any distance function.
- **Proving the fixes.** Where the code does not do what its authors
  evidently meant, both the code as written and the corrected version are
  modelled (see Findings).

Where the views and the models disagree, the model follows these choices:

- **One catalog of cafes.** `add_rating` looks the cafe up in `Place`
  (main/views/place.py:62), while `RatingListView` looks it up in `Cafe`
  (main/views/rating.py:30), and `Rating.cafe` refers to `Cafe`
  (main/models/rating.py:7). The model has one catalog of cafe ids for both
  endpoints, so `Ratings.SubmitEndpointsAgree` holds only where a place and a
  cafe share an id.
- **Rating's relation to its cafe.** The views name it `Cafe=` (rating.py:41,
  46), `place=` (rating.py:74, 89; place.py:70, 75) and `cafe=` (rating.py:92,
  97). The model (main/models/rating.py:7) declares it `cafe`, and the model uses
  one cafe key throughout.
- **The stored average.** The views assign `cafe.rating`, but the Cafe model
  declares no such field. The stored average is modelled as the per-cafe map.
- **The post's `board` field.** `main/views/post.py` filters and saves on
  `board`, which the Post model does not declare. A modelled post carries
  `board` next to `position`, `ftf` and `anonymous`. As routed,
  nomad_kor/urls.py hands these views `position_id`, `ftf_id` or
  `anonymous_id`, never `board_id`. Listing therefore returns nothing on
  every route; the model describes the views themselves. The detail view
  (post.py:62) calls `Post.objects.get(board_id=None, id=pk)` on those routes,
  and since Post has no `board` field, Django raises `FieldError` (500) on
  every routed detail request. The model instead treats a missing board id
  as `board IS NULL`.
- **Area choices.** `ProfileSerializer` reads `Profile.AREA_CHOICES` and lists
  an `area` field, and the Profile model declares neither. The area choices
  are a parameter, and `area` is taken to be declared like `gender` and
  `job`, as a text column with those choices (see "## Left out").
- **The two job lists.** The profile serializer checks a job twice. The
  model-derived choice field checks it against the model's
  `FE, BE, PM, DS, BL, MK`. Then `validate_job` checks it against
  `FE, BE, ST, CT, MK`. Only `FE`, `BE` and `MK` get through both
  (`ProfileValidation.JobFieldAcceptsBothLists`).

## Model

| member | source | states |
|---|---|---|
| Common.Trunc | main/views/rating.py:35 | `int()` of a number truncates toward zero: the result is the integer at most 1 away from x, on the same side of zero |
| Common.ParseShowRoundTrip | main/views/rating.py:35 | `int()` of an integer's decimal text gives that integer back |
| Common.ToInt | main/views/rating.py:35 | `int()` of a request value: a missing value or empty text raises; a number never does |
| Common.ToFloat | main/views/cafe.py:62-66 | `float()` of a JSON number is that number; a missing value raises |
| Common.ContainsAt | main/views/comment.py:98 | a string that has the needle at some position contains it (`in` on strings) |
| Common.ParseInt | main/views/rating.py:35 | `int()` of text, restricted to ASCII digits, no surrounding whitespace and no underscores (see "## Left out"): such text is accepted exactly when it is an optional sign followed by at least one digit. A leading minus gives a value at most 0, and otherwise the value is at least 0 |
| Common.Insert | main/models/comment.py:5 | a new row gets a positive id no existing row holds, and every existing row keeps its id and value |
| Common.Trim | main/serializers/comment.py:4-10 | the serializer's stripping of text: the result is empty exactly when the text is blank, and otherwise begins and ends with a non-space character |
| Common.TrimIsSlice | main/serializers/comment.py:4-10 | the stripped text sits at some position of the input as a contiguous piece, and only whitespace is cut on either side |
| Common.TrimIdempotent | main/serializers/comment.py:4-10 | stripping twice is the same as stripping once |
| Common.CheckText | main/models/comment.py:9 | a required text field: missing is Required, blank is refused, the length bound applies to the stripped text, text holding a NUL character is refused, and an accepted value is the stripped, non-empty text |
| Common.TrimKeepsNul | main/models/comment.py:9 | stripping neither adds nor removes a NUL character, so the NUL check on the stripped text is a check on the submitted text |
| Ratings.Upsert | main/views/rating.py:39-43 | `update_or_create` on (user, cafe): the pair's value becomes v and every other pair keeps its value. Uniqueness is preserved. The cafe's count grows by one only for a new pair, and its sum changes by the value's difference |
| Ratings.Remove | main/views/rating.py:91-93 | deleting the (user, cafe) row: that pair disappears, every other pair keeps its value, and the cafe's count and sum drop by the removed rating |
| Ratings.AverageBounds | main/models/rating.py:8 | with every rating between 1 and 5 and at least one rating, the average lies between 1 and 5 |
| Ratings.RecomputeKeepsValid | main/views/rating.py:96-100 | storing the recomputed average after a write that keeps ratings unique and in range keeps the whole store consistent |
| Ratings.Recompute | main/views/rating.py:96-100 | `update_average_rating`: the ratings are kept, and the cafe's stored average times its count is its sum, or 0 with no ratings. Every other cafe's average is unchanged |
| Ratings.SubmitRating | main/views/rating.py:28-56 | the order of failures: 404 for an unknown cafe, then 400 for a falsy value, then 500 when `int()` fails, then 400 out of range, each stated for its own case. Success exactly when all checks pass, and a failure changes nothing. On success the user's rating is set, every other rating and every other cafe's average is unchanged, and the returned and stored average is the cafe's sum over its count |
| Ratings.AddRating | main/views/place.py:57-86 | the same write as SubmitRating without the truthiness check. A missing value or empty text fails with 500, and an integer outside 1..5 with 400. Success exactly when the cafe exists and `int()` gives a value in 1..5 |
| Ratings.GetAverage | main/views/rating.py:68-76 | 404 for an unknown cafe. The average is 0 when the cafe has no rating. Otherwise it times the count is the sum, and it lies in [1, 5] when all ratings are in range. The store is only read |
| Ratings.UpdateRatingAsWritten | main/views/rating.py:87-89 | the update as written accepts any value in 0..32767 for an existing rating |
| Ratings.UpdateAsWrittenBreaksBound | main/views/rating.py:87-89 | a consistent store updated as written to 6 stores an average of 6 and is no longer consistent |
| Ratings.UpdateRating | main/views/rating.py:87-100 | the corrected update: success exactly for an existing rating and a value in 1..5. Only that pair changes, and the stored average is recomputed from the new ratings |
| Ratings.DeleteRating | main/views/rating.py:91-100 | success exactly when the rating exists. The pair is gone and nothing else is. The count drops by one. The stored average is the one recomputed from the remaining ratings, and 0 once no rating remains |
| Ratings.SubmitKeepsValid | main/views/rating.py:28-56 | every submit keeps the store consistent: unique pairs, values in 1..5, every stored average equal to the recomputed one |
| Ratings.AddRatingKeepsValid | main/views/place.py:57-86 | every `add_rating` keeps the store consistent |
| Ratings.UpdateKeepsValid | main/views/rating.py:87-100 | the corrected update keeps the store consistent |
| Ratings.DeleteKeepsValid | main/views/rating.py:91-100 | every delete keeps the store consistent |
| Ratings.ReadAgreesWithStored | main/views/rating.py:68-76 | in a consistent store, the average a GET computes equals the stored one |
| Ratings.ReadAfterSubmit | main/views/rating.py:52-56 | right after a submit, a GET returns the average the submit reported |
| Ratings.SubmitEndpointsAgree | main/views/place.py:63-65 | the two submit endpoints write the same store whenever both succeed. A missing value gets 400 from one and 500 from the other |
| Ratings.ResubmissionReplaces | main/views/rating.py:39-47 | rating 4 then 2 by one user leaves one rating, of 2, and an average of 2 |
| Ratings.ThreeRatersThenDelete | main/views/rating.py:91-100 | ratings 5, 3 and 4 average 4. Deleting the 3 leaves 4.5 |
| Reviews.ListReviews | main/views/place.py:96-98 | a review is listed for a place exactly when it exists and belongs to that place |
| Reviews.CreateReviewWith | main/views/place.py:100-102 | content that is not filled in is refused by the serializer first, then an unknown place. A user row assigned to the profile relation raises. Otherwise exactly one review is added with the given author and the stripped content, and nothing else changes |
| Reviews.CreateReviewAsWritten | main/views/place.py:100-102 | creation as written never succeeds. With content filled in and an existing place, it fails on the wrong-model assignment |
| Reviews.CreateReview | main/views/place.py:100-102 | corrected creation succeeds exactly when the content is filled in and the place exists. Blank content is refused before the place is looked up. It adds one review by the requester's profile with the stripped content, and leaves every other row alone |
| Reviews.CreatedReviewIsListed | main/views/place.py:96-102 | after corrected creation the new review is listed under its place, and every place's listing is otherwise unchanged |
| Reviews.UpdateReviewWith | main/views/place.py:113-116 | an unknown review is 404. Then the serializer refuses blank content, and then the author check runs. Success exactly when all pass. Only that review's content changes |
| Reviews.UpdatedContent | main/serializers/review.py:8-10 | the content after validation: a partial update without content keeps the old content, filled-in content is stripped, and anything else is refused |
| Reviews.DeleteReviewWith | main/views/place.py:118-121 | success exactly when the review exists and the compared row is its author's profile. Only that review is removed |
| Reviews.UpdateReviewAsWritten | main/views/place.py:113-116 | the update as written never succeeds. For an existing review with valid content it always fails the author check |
| Reviews.DeleteReviewAsWritten | main/views/place.py:118-121 | the delete as written never succeeds, and for an existing review it always fails the author check |
| Reviews.AuthorRefusedAsWritten | main/views/place.py:113-121 | a review's own author is refused both edit and delete as written |
| Reviews.UpdateReview | main/views/place.py:113-116 | corrected update succeeds exactly for the review's author with valid content. Blank content is refused, and a different profile is refused. The review keeps its place and author, takes the stripped new content (or keeps the old one when a partial update sends none), and nothing else changes |
| Reviews.UpdatedReviewIsListed | main/views/place.py:96-98 | after an update every place's listing is unchanged, and the review holds the new stripped content |
| Reviews.DeleteReview | main/views/place.py:118-121 | corrected delete succeeds exactly for the review's author. Only that review is removed |
| Reviews.DeletedReviewIsUnlisted | main/views/place.py:96-98 | after a delete, the place's listing is the old listing without the deleted review |
| Proximity.Within | main/views/cafe.py:78 | `filter(distance__lte=radius)`: each cafe is kept exactly as often as in the catalog when within the radius, otherwise dropped |
| Proximity.InsertByDistance | main/views/cafe.py:78 | inserting into a distance-sorted list keeps it sorted and adds exactly that cafe |
| Proximity.SortByDistance | main/views/cafe.py:78 | `order_by("distance")`: a distance-sorted permutation of its input |
| Proximity.TiesKeepCatalogOrder | main/views/cafe.py:78 | two cafes at the same distance come out of the sort in catalog order, one of the orders the database may give |
| Proximity.SortedPrefixIsNearest | main/views/cafe.py:78 | nothing after a cut in a distance-sorted list is strictly nearer than anything before it |
| Proximity.PrefixIsSelection | main/views/cafe.py:78 | a prefix of the sorted qualifying cafes is within range and drawn from the catalog. No qualifying cafe left out is strictly nearer than one kept |
| Proximity.Nearest | main/views/cafe.py:78 | the answer holds at most `limit` cafes, is sorted by distance, lies within the radius and is drawn from the catalog |
| Proximity.NearestIsNearestSelection | main/views/cafe.py:69-78 | filter, sort and `[:limit]` together give min(limit, #qualifying) cafes within range, sorted, drawn from the catalog, with no strictly nearer qualifying cafe omitted |
| Proximity.NearbyCafes | main/views/cafe.py:54-82 | a falsy coordinate is refused, then a non-numeric one. Success exactly when both are truthy and convert. The answer is a correct selection of the 5 nearest cafes within 1 km |
| Proximity.Midpoint | main/views/cafe.py:135-136 | the midpoint is equally far, in each coordinate, from both users |
| Proximity.MidpointProperties | main/views/cafe.py:135-136 | the midpoint is symmetric and idempotent, and lies between the two points in each coordinate |
| Proximity.MidpointExample | main/views/cafe.py:135-136 | (37.50, 127.00) and (37.60, 127.10) meet at (37.55, 127.05) |
| Proximity.MidpointCafes | main/views/cafe.py:115-152 | a missing or empty parameter is refused. Success exactly when all four parse. The answer is a correct selection of the 5 nearest cafes within 5 km of the midpoint |
| Proximity.Named | main/views/cafe.py:182 | `filter(name=n)`: exactly the catalog entries with that name |
| Proximity.CafeByName | main/views/cafe.py:173-184 | no name and no match give 404. A result is the only cafe of that name. A refusal for several matches is given only when two entries share the name |
| Proximity.CafeByNameUnique | main/views/cafe.py:173-184 | a name held by exactly one catalog entry finds that entry |
| Proximity.CafeByNameSeveral | main/views/cafe.py:173-184 | a name held by two catalog entries fails with the uncaught `MultipleObjectsReturned` |
| Proximity.NamedHasTwo | main/views/cafe.py:182 | two matches by name give two distinct catalog positions holding that name |
| Posts.ListPosts | main/views/post.py:16-20 | no or zero board id lists nothing. Otherwise a post is listed exactly when it exists on that board |
| Posts.GetPost | main/views/post.py:58-64 | found exactly when the post exists and its board equals the given board id (none matching a board-less post). Otherwise 404 |
| Posts.PostFieldErrors | main/serializers/post.py:5-10 | the author fails exactly when it is missing or no profile has that id. The title fails exactly when it is not filled in or is longer than 200 once stripped. The content fails exactly when it is not filled in |
| Posts.CreatePost | main/views/post.py:22-50 | the serializer's field errors are reported first, together, so a missing title or content is refused there. Then an unknown board is refused. Success exactly when there is no field error and the board exists. It adds exactly one post with that board, the requester as author, and the raw title and content, and leaves every other row alone |
| Posts.TitleCheckShadowed | main/views/post.py:28-29 | the view's own "Title and content are required" check is never reached |
| Posts.BlankTitleRefused | main/models/post.py:13 | a non-empty title of only whitespace passes the view's own truthiness check but is refused by the serializer as a title error |
| Posts.DetailAgreesWithList | main/views/post.py:16-20 | for a real board id, the detail lookup finds exactly the listed posts |
| Posts.CreatedPostIsFound | main/views/post.py:22-64 | a created post is found by the detail lookup and added to its board's listing |
| Comments.PermissionRules | main/views/comment.py:12-21 | modifying needs the comment's or the post's author. Reading a private comment needs the same. A public comment is readable by anyone. Both authors always pass |
| Comments.HasObjectPermission | main/views/comment.py:12-21 | the comment's author and the post's author always pass, and only a modifying method or a private comment can refuse anyone |
| Comments.SelectBoard | main/views/comment.py:38-59 | the route's board: a truthy position id first, then ftf, then anonymous. None exactly when no id is truthy |
| Comments.ResolvePost | main/views/comment.py:38-59 | an invalid route exactly when no board id is truthy. Success exactly when a board is selected, the post id is given, and that post exists on the selected board. The result is the route's post id. Otherwise the post is not found |
| Comments.ResolvePriority | main/views/comment.py:38-57 | a position id decides the post whatever other ids come with it, and an ftf id decides it whatever anonymous id comes with it |
| Comments.ListComments | main/views/comment.py:30-59 | fails exactly when the post does not resolve. Otherwise lists exactly the comments of that post |
| Comments.ListingShowsPrivateComments | main/views/comment.py:30-59 | the listing includes private comments, whoever asks |
| Comments.CommentFieldErrors | main/serializers/comment.py:4-10 | the content fails exactly when it is not filled in (missing, blank, or holding a NUL). The parent fails exactly when it is given and no comment has that id |
| Comments.CreateComment | main/views/comment.py:61-105 | the serializer's field errors are reported first. Then the route must resolve. Success exactly when both pass. The new comment is on the resolved post, with the requester as author, the stripped content and the given parent. It is private exactly when it is a reply or was asked to be private. It is signed "익명" exactly when the path contains "anonymous", and otherwise with the requester's nickname |
| Comments.CreatedCommentIsListed | main/views/comment.py:30-105 | a created comment is listed under the post it was made on, and nothing else is added |
| Comments.ParentZeroRefused | main/models/comment.py:10 | a parent id of 0 is refused as a parent error, because no comment has id 0 |
| Comments.ReplyHiddenFromOthers | main/views/comment.py:74-76 | a reply is private, readable by its author and the post's author and by nobody else |
| Comments.AnonymousRouteSignsAnonymously | main/views/comment.py:97-101 | a comment made under /network/anonymous/ is signed "익명" |
| Comments.ParentOfAnotherPostAccepted | main/views/comment.py:74-76 | a reply on one post naming as parent a comment of another post is accepted, and the new comment keeps that parent |
| Comments.GetCommentObject | main/views/comment.py:114-149 | a route error is passed on. Success exactly when the requested comment exists and belongs to the resolved post, and then the result is that comment. Otherwise it is not found |
| Comments.DetailAgreesWithListing | main/views/comment.py:30-149 | the detail lookup finds a comment exactly when the listing for the same route lists it |
| Comments.AccessCommentAsWritten | main/views/comment.py:107-149 | the detail view as written returns the comment whenever the lookup succeeds, and never refuses permission |
| Comments.AccessComment | main/views/comment.py:8-21 | with the permission class applied, a comment the lookup finds is returned exactly when the requester has object permission for the method. Everyone else is refused, and lookup errors are passed on |
| Comments.DetailSkipsPermission | main/views/comment.py:107-149 | a stranger reads and deletes a private comment as written, and is refused once the permission applies |
| Signup.Status | main/views/signup.py:20-37 | 405 for a non-POST method, 500 for an exception the view does not catch, 400 for every other refusal |
| Signup.Get | main/views/signup.py:15-17 | `data.get(key)` is the member's value exactly when the key is present |
| Signup.SignUp | main/views/signup.py:10-37 | the checks run in this order: 405; then a body that is not text is a 500, since only `JSONDecodeError` is caught; then invalid JSON 400 and a non-object body 500; then missing (falsy) fields, then name taken (on the name's `str()`), then password mismatch (Python `!=`, so a non-string confirmation never matches); then a non-string password makes `make_password` raise (500). Success exactly when all pass. Success adds exactly the new name with the hashed password and keeps every account. A failure changes nothing |
| Signup.NumericConfirmationMismatch | main/views/signup.py:19-26 | a numeric confirmation is truthy and differs from the password string, so the request is refused as a mismatch, not as a missing field |
| Signup.NonStringPasswordFails | main/views/signup.py:25-31 | matching non-string passwords pass every check, and hashing them fails with a 500 |
| Signup.SecondSignUpRefused | main/views/signup.py:22-23 | the same sign-up sent twice is refused the second time as a taken name |
| Signup.ExistingAccountsKept | main/views/signup.py:28-31 | no request removes or rewrites an existing account |
| Signup.MissingFieldReportedFirst | main/views/signup.py:19-26 | an empty confirmation is reported as a missing field even when the passwords also differ |
| ProfileValidation.ValidateNickname | main/serializers/profile.py:9-13 | a nickname is refused exactly when some profile holds it, and is otherwise returned unchanged |
| ProfileValidation.ValidateAge | main/serializers/profile.py:15-19 | exactly the negative ages are refused, so 0 is accepted. Accepted ages are returned unchanged |
| ProfileValidation.ValidateGender | main/serializers/profile.py:21-25 | exactly "M" and "F" are accepted, unchanged |
| ProfileValidation.ValidateJob | main/serializers/profile.py:27-32 | exactly FE, BE, ST, CT and MK are accepted, unchanged |
| ProfileValidation.ValidateArea | main/serializers/profile.py:34-39 | accepted exactly when the value is the first component of some area choice, and returned unchanged |
| ProfileValidation.NicknameField | main/serializers/profile.py:9-13 | the nickname is stripped first. It is accepted exactly when it is not blank, holds no NUL, has at most 30 characters once stripped, and no profile holds the stripped name; the validated value is the stripped name. Blank, too-long and taken names each get their own error |
| ProfileValidation.CheckChoice | main/models/profile.py:22-23 | a field with a choice list accepts exactly the listed values, unchanged. Anything else, the empty value included, is an invalid choice |
| ProfileValidation.GenderField | main/serializers/profile.py:21-25 | a value off the model's list is an invalid choice. A listed value other than M or F would fail the hook. An accepted value is unchanged |
| ProfileValidation.JobField | main/serializers/profile.py:27-32 | a value off the model's list is an invalid choice, and a listed value the hook does not know is an invalid job. An accepted value is unchanged |
| ProfileValidation.AreaField | main/serializers/profile.py:34-39 | with `area` declared as a choice field over the area choices: accepted exactly when it is the first component of some area choice, and unchanged. Every refusal, the empty value included, is an invalid choice, so `validate_area` never adds a refusal |
| ProfileValidation.GenderFieldIsChoiceList | main/serializers/profile.py:21-25 | the gender field accepts exactly the model's choices, so the hook adds nothing |
| ProfileValidation.JobFieldAcceptsBothLists | main/serializers/profile.py:27-32 | the job field accepts exactly FE, BE and MK, the codes on both the model's list and the hook's |
| ProfileValidation.ValidateProfile | main/serializers/profile.py:4-39 | the profile is accepted exactly when every field passes, and the validated data is the input with its nickname stripped. Otherwise every failing field is reported with its own error, and no passing field is reported |
| ProfileValidation.AcceptedWithFewerTaken | main/serializers/profile.py:9-13 | an accepted profile stays accepted when fewer nicknames are taken |
| ProfileValidation.ErrorsReportedTogether | main/serializers/profile.py:9-32 | a taken nickname, age -1 and job PM are reported together, and the valid fields are not reported |

## Left out

- Great-circle distance: the database's haversine expression in floating point is an uninterpreted function. No property depends on its formula.
- Ties in `order_by("distance")`: the database fixes no order among equally distant cafes. The contracts accept any order of ties, and `Nearest` keeps them in catalog order.
- Routing of the proximity views: nomad_kor/urls.py:32-33 and 54 route `places/nearby/` to the `NearbyCafeListView` of main/views/place.py, and no route reaches the views of main/views/cafe.py. The model describes the cafe.py views as written.
- The `NearbyCafeListView` of main/views/place.py (the profile's stored location, then a review-tag filter): its filter calls `.items()` on the `reviews` related manager, which has no such method, so every request with a cafe in range raises. It is left out.
- Common.Field: JSON numbers are exact reals, with no rounding and no infinity. In the source a rating of `1e400` parses to `inf`, and `int()` of it raises `OverflowError`, a 500 from both rating endpoints; the model truncates it to a huge integer and answers 400.
- Proximity.Midpoint: exact arithmetic. In doubles the mean is rounded, so the equal-distance property holds only up to rounding.
- Naver Maps directions (main/views/direction.py, main/services/naver_api.py), the front-end map script, login and JWT, the cafe loader command, the schema decorators, and the generic board/profile CRUD views: they are outside the modelled core.
- Persistence, transactions and concurrent requests: each operation is one atomic step on an immutable store.
- Password hashing: `make_password` is a parameter of `Signup.SignUp`.
- `float()` of text is a parameter.
- Common.ParseInt: accepts an optional sign and ASCII digits only. Python's `int()` also accepts every Unicode decimal digit (`int("３") == 3`), surrounding whitespace and single underscores between digits. The model refuses these, so a rating of `"３"` or `" 4 "` gets a 500 in the model where the source stores it.
- Common.CheckText: reports one problem. When a text is both too long and holds a NUL, DRF lists both messages, and the model reports only the length.
- Signup.SignUp: two non-string JSON values are taken to be equal exactly when their `str()` forms and truthiness agree. Python also finds `1 == 1.0 == true` equal and ignores key order in objects, and for such a password pair the source gets a 500 where the model answers PasswordMismatch. `make_password` is taken to refuse non-text with `TypeError`, as Django 3.1 and later do. A body that is not text covers every byte sequence the decoding `json.loads` picks cannot decode.
- Request values of other JSON types (lists, objects, booleans) in the rating and coordinate endpoints: a value is absent, a number or text.
- The DRF field parsing of an update body: `UpdateRating` takes the already-parsed integer.
- Authentication: `IsAuthenticatedOrReadOnly` is assumed satisfied for writes, and every requester is assumed to have a profile.
- Ratings.UpdateRating, Ratings.UpdateRatingAsWritten and Ratings.DeleteRating: the detail route finds the rating by its primary key, which the model replaces by its (user, cafe) pair. Any authenticated user may update or delete any rating, as the source allows; the requester does not appear.
- Ratings.SubmitRating: a cafe is known exactly when it has an entry in the average map.
- Comments.CreateComment: a JSON value of the wrong type for `content`, `is_private` or `parent` is not modelled; the request carries already-typed values.
- Posts.CreatePost: a non-string `title` or `content` and the optional `image` upload are not modelled.
- Reviews.UpdateReview: only `content` is writable; the other serializer fields are read-only and are not modelled.
- ProfileValidation.AreaField: as written, `ProfileSerializer` lists `area`, which the Profile model does not declare. Building the serializer's fields raises `ImproperlyConfigured`, and every `is_valid` call fails with a 500. The model assumes `area` is a text column with the area choices as its `choices`, as `gender` and `job` are. Under a different declaration (a plain text field, say), blank would be refused before the hook runs.
- ProfileValidation.ValidateProfile: its parsing of `age` from text is not modelled; the input is already typed. As written, every call raises `ImproperlyConfigured` (see the `ProfileValidation.AreaField` line); the model describes the serializer with `area` declared.
- Reviews.ListReviews: the review serializer's output fields are not modelled.

## Findings

| source | as written | input that shows it | evidently intended | confidence | as-written member | corrected member |
|---|---|---|---|---|---|---|
| main/views/rating.py:87-89 | the update saves any value the serializer accepts for a `PositiveSmallIntegerField`, i.e. 0..32767, and recomputes the average | one rating of 4 for cafe 1, updated to 6: the stored average becomes 6 | stars stay in 1..5 (main/models/rating.py:8, main/views/rating.py:35), so the average stays in [1, 5] | not executed | Ratings.UpdateRatingAsWritten | Ratings.UpdateRating |
| main/views/place.py:113-121 | `request.user != review.user` compares a User with a Profile, which Django never finds equal, so every edit and delete raises `PermissionError` | the author (user 4, profile 4) edits review 1 | the review's author may edit and delete it | not executed | Reviews.UpdateReviewAsWritten | Reviews.UpdateReview |
| main/views/place.py:100-102 | `save(user=request.user)` assigns a User to a relation to Profile, which raises `ValueError`, so no review is ever created | any create request for an existing place | the requester's profile becomes the review's author | not executed | Reviews.CreateReviewAsWritten | Reviews.CreateReview |
| main/views/comment.py:114-149 | the `get_object` override never calls `check_object_permissions`, so `IsAuthorOrPostAuthorPermission` is never consulted | profile 3 reads and deletes a private comment by profile 2 on profile 1's post | only the comment's or post's author may read a private comment or modify any comment (comment.py:12-21) | not executed | Comments.AccessCommentAsWritten | Comments.AccessComment |

=== FILE: comments.dfy ===
/** Comments on board posts (main/views/comment.py): the object permission
    for viewing and modifying a comment, resolving the post a board route
    names, listing, creating, and the detail lookup. */
module Comments {
  import opened Common
  import Posts

  /** A comment row; `parent` makes it a reply. */
  datatype Comment = Comment(
    post: nat,
    author: ProfileId,
    authorName: string,
    content: string,
    parent: Option<nat>,
    isPrivate: bool)

  /** The keyword arguments of a comment route. */
  datatype BoardRoute = BoardRoute(positionId: Option<nat>, ftfId: Option<nat>, anonymousId: Option<nat>, postId: Option<nat>)

  datatype BoardKind = PositionBoard | FtfBoard | AnonymousBoard

  /** The body of a create request: `content`, `is_private` and `parent`,
      each possibly missing. */
  datatype CommentRequest = CommentRequest(content: Option<string>, isPrivate: Option<bool>, parent: Option<nat>)

  /** The requester's profile and its nickname. */
  datatype Commenter = Commenter(profile: ProfileId, nickname: string)

  /** The writable fields the comment serializer can refuse. */
  datatype CommentField = ContentField | ParentField

  /** `Invalid` is the serializer's refusal of the body (400), naming every
      failing field. `PostNotFound`, `InvalidBoard` and `CommentNotFound` are
      the views' validation errors (400). `PermissionDenied` is a 403. */
  datatype CommentError = Invalid(fields: set<CommentField>) | PostNotFound | InvalidBoard | CommentNotFound | PermissionDenied

  /** The display name of every comment made on an anonymous route. */
  const AnonymousName: string := "익명"

  predicate IsModifying(m: HttpMethod) {
    m == PUT || m == PATCH || m == DELETE
  }

  /** `IsAuthorOrPostAuthorPermission.has_object_permission`: the comment's
      author and the post's author always pass, and only a modifying method
      or a private comment can refuse anyone. */
  predicate HasObjectPermission(m: HttpMethod, requester: ProfileId, c: Comment, postAuthor: ProfileId): (ok: bool)
    ensures requester == c.author || requester == postAuthor ==> ok
    ensures !ok ==> IsModifying(m) || c.isPrivate
  {
    if IsModifying(m) then c.author == requester || postAuthor == requester
    else if c.isPrivate then c.author == requester || postAuthor == requester
    else true
  }

  /** Who may do what with a comment: modifying needs the comment's or the
      post's author; reading a private comment needs the same; anyone reads a
      public one. */
  lemma PermissionRules(m: HttpMethod, requester: ProfileId, c: Comment, postAuthor: ProfileId)
    ensures IsModifying(m) ==>
              (HasObjectPermission(m, requester, c, postAuthor) <==> requester == c.author || requester == postAuthor)
    ensures !IsModifying(m) && c.isPrivate ==>
              (HasObjectPermission(m, requester, c, postAuthor) <==> requester == c.author || requester == postAuthor)
    ensures !IsModifying(m) && !c.isPrivate ==> HasObjectPermission(m, requester, c, postAuthor)
    ensures HasObjectPermission(m, c.author, c, postAuthor) && HasObjectPermission(m, postAuthor, c, postAuthor)
  {
  }

  /** The board a route names: position first, then ftf, then anonymous. */
  function SelectBoard(route: BoardRoute): (r: Option<(BoardKind, nat)>)
    ensures r.None? <==> !TruthyId(route.positionId) && !TruthyId(route.ftfId) && !TruthyId(route.anonymousId)
    ensures TruthyId(route.positionId) ==> r == Some((PositionBoard, route.positionId.value))
    ensures !TruthyId(route.positionId) && TruthyId(route.ftfId) ==> r == Some((FtfBoard, route.ftfId.value))
    ensures !TruthyId(route.positionId) && !TruthyId(route.ftfId) && TruthyId(route.anonymousId) ==>
              r == Some((AnonymousBoard, route.anonymousId.value))
  {
    if TruthyId(route.positionId) then Some((PositionBoard, route.positionId.value))
    else if TruthyId(route.ftfId) then Some((FtfBoard, route.ftfId.value))
    else if TruthyId(route.anonymousId) then Some((AnonymousBoard, route.anonymousId.value))
    else None
  }

  function BoardOf(p: Posts.Post, kind: BoardKind): Option<nat> {
    match kind
    case PositionBoard => p.position
    case FtfBoard => p.ftf
    case AnonymousBoard => p.anonymous
  }

  /** `Post.objects.get(<board>_id=..., id=post_id)` for the board the route
      selects; no board id at all is an invalid route. */
  function ResolvePost(posts: Table<Posts.Post>, route: BoardRoute): (r: Result<nat, CommentError>)
    ensures r == Err(InvalidBoard) <==> SelectBoard(route).None?
    ensures r.Ok? <==>
              && SelectBoard(route).Some? && route.postId.Some? && Has(posts, route.postId.value)
              && BoardOf(posts[route.postId.value].value, SelectBoard(route).value.0) == Some(SelectBoard(route).value.1)
    ensures r.Ok? ==> r.value == route.postId.value
    ensures r.Err? && SelectBoard(route).Some? ==> r.error == PostNotFound
  {
    match SelectBoard(route)
    case None => Err(InvalidBoard)
    case Some((kind, id)) =>
      if route.postId.Some? && Has(posts, route.postId.value) && BoardOf(posts[route.postId.value].value, kind) == Some(id)
      then Ok(route.postId.value)
      else Err(PostNotFound)
  }

  /** A position id decides the post whatever ftf or anonymous id comes with
      it, and an ftf id decides it whatever anonymous id comes with it. */
  lemma ResolvePriority(posts: Table<Posts.Post>, route: BoardRoute, ftf: Option<nat>, anonymous: Option<nat>)
    ensures TruthyId(route.positionId) ==>
              ResolvePost(posts, route) == ResolvePost(posts, route.(ftfId := ftf, anonymousId := anonymous))
    ensures !TruthyId(route.positionId) && TruthyId(route.ftfId) ==>
              ResolvePost(posts, route) == ResolvePost(posts, route.(anonymousId := anonymous))
  {
  }

  /** `CommentListView.get_queryset`: every comment of the resolved post,
      private ones and replies included. */
  function ListComments(posts: Table<Posts.Post>, comments: Table<Comment>, route: BoardRoute): (r: Result<set<nat>, CommentError>)
    ensures r.Err? <==> ResolvePost(posts, route).Err?
    ensures r.Ok? ==>
              forall k: nat :: k in r.value <==> Has(comments, k) && comments[k].value.post == ResolvePost(posts, route).value
  {
    match ResolvePost(posts, route)
    case Err(e) => Err(e)
    case Ok(p) => Ok(set k: nat | 0 < k < |comments| && comments[k].Some? && comments[k].value.post == p)
  }

  /** The listing hands out private comments to any requester: it applies no
      object permission. */
  lemma ListingShowsPrivateComments(posts: Table<Posts.Post>, comments: Table<Comment>, route: BoardRoute, k: nat)
    requires ResolvePost(posts, route).Ok?
    requires Has(comments, k) && comments[k].value.post == ResolvePost(posts, route).value
    requires comments[k].value.isPrivate
    ensures k in ListComments(posts, comments, route).value
  {
  }

  /** The comment serializer's checks of a create body: `content` is
      required and not blank once stripped; `parent`, when given, must be the
      key of an existing comment (key 0 never is). The result is the set of
      failing fields. */
  function CommentFieldErrors(comments: Table<Comment>, req: CommentRequest): (r: set<CommentField>)
    ensures ContentField in r <==> !FilledIn(req.content)
    ensures ParentField in r <==> req.parent.Some? && !Has(comments, req.parent.value)
  {
    (if CheckText(req.content, None).Err? then {ContentField} else {})
    + (if req.parent.Some? && !Has(comments, req.parent.value) then {ParentField} else {})
  }

  /** The reply target `perform_create` reads from the body: a falsy parent
      id means none. */
  function ParentOf(req: CommentRequest): Option<nat> {
    if TruthyId(req.parent) then req.parent else None
  }

  /** `CommentListView` create: the create mixin validates the body with the
      serializer first; then `perform_create` fetches the parent (which the
      serializer has shown to exist, on any post), resolves the post, and adds
      one comment by the requester with the stripped content. A reply is
      always private; otherwise the requested flag applies, false when absent.
      The display name is "익명" whenever the request path contains
      "anonymous". */
  function CreateComment(posts: Table<Posts.Post>, comments: Table<Comment>, route: BoardRoute,
                         path: string, req: CommentRequest, requester: Commenter): (r: Result<(nat, Table<Comment>), CommentError>)
    ensures CommentFieldErrors(comments, req) != {} ==> r == Err(Invalid(CommentFieldErrors(comments, req)))
    ensures r.Ok? <==> CommentFieldErrors(comments, req) == {} && ResolvePost(posts, route).Ok?
    ensures CommentFieldErrors(comments, req) == {} && ResolvePost(posts, route).Err? ==>
              r == Err(ResolvePost(posts, route).error)
    ensures r.Ok? ==>
              var (k, comments') := r.value;
              && !Has(comments, k) && Has(comments', k)
              && |comments'| > |comments|
              && (forall j | 0 <= j < |comments| :: comments'[j] == comments[j])
              && var c := comments'[k].value;
                 && c.post == ResolvePost(posts, route).value
                 && c.author == requester.profile
                 && c.content == Trim(req.content.value)
                 && c.parent == req.parent
                 && (c.isPrivate <==> req.parent.Some? || req.isPrivate == Some(true))
                 && c.authorName == (if Contains(path, "anonymous") then AnonymousName else requester.nickname)
  {
    var errors := CommentFieldErrors(comments, req);
    if errors != {} then Err(Invalid(errors))
    else
      var parent := ParentOf(req);
      match ResolvePost(posts, route)
      case Err(e) => Err(e)
      case Ok(p) =>
        var isPrivate := if parent.Some? then true else req.isPrivate.GetOr(false);
        var name := if Contains(path, "anonymous") then AnonymousName else requester.nickname;
        Ok(Insert(comments, Comment(p, requester.profile, name, Trim(req.content.value), parent, isPrivate)))
  }

  /** A created comment is listed on its post, next to every comment listed
      before. */
  lemma CreatedCommentIsListed(posts: Table<Posts.Post>, comments: Table<Comment>, route: BoardRoute,
                               path: string, req: CommentRequest, requester: Commenter)
    requires CreateComment(posts, comments, route, path, req, requester).Ok?
    ensures var (k, comments') := CreateComment(posts, comments, route, path, req, requester).value;
            ListComments(posts, comments', route) == Ok(ListComments(posts, comments, route).value + {k})
  {
    var (k, comments') := CreateComment(posts, comments, route, path, req, requester).value;
    var before := ListComments(posts, comments, route).value;
    var after := ListComments(posts, comments', route).value;
    forall j: nat ensures j in after <==> j in before + {k} {
      if j < |comments| {
        assert comments'[j] == comments[j];
      }
    }
    assert after == before + {k};
  }

  /** Parent id 0 names no comment, so the serializer refuses it. */
  lemma ParentZeroRefused(posts: Table<Posts.Post>, comments: Table<Comment>, route: BoardRoute,
                          path: string, requester: Commenter)
    ensures CreateComment(posts, comments, route, path, CommentRequest(Some("hi"), None, Some(0)), requester)
              == Err(Invalid({ParentField}))
  {
    var req := CommentRequest(Some("hi"), None, Some(0));
    assert !Blank("hi") by { assert "hi"[0] == 'h' && !IsSpace('h'); }
    var errors := CommentFieldErrors(comments, req);
    assert errors == {ParentField} by {
      forall f ensures f in errors <==> f == ParentField {
        if f.ContentField? {
          assert f !in errors;
        }
      }
    }
  }

  /** A reply, whatever privacy flag was asked for, is hidden from everyone
      but its author and the post's author, and both of them see it. */
  lemma ReplyHiddenFromOthers(posts: Table<Posts.Post>, comments: Table<Comment>, route: BoardRoute,
                              path: string, req: CommentRequest, requester: Commenter, other: ProfileId)
    requires req.parent.Some?
    requires CreateComment(posts, comments, route, path, req, requester).Ok?
    ensures var (k, comments') := CreateComment(posts, comments, route, path, req, requester).value;
            var c := comments'[k].value;
            var postAuthor := posts[c.post].value.author;
            && c.isPrivate
            && (other != requester.profile && other != postAuthor ==> !HasObjectPermission(GET, other, c, postAuthor))
            && HasObjectPermission(GET, postAuthor, c, postAuthor)
            && HasObjectPermission(GET, requester.profile, c, postAuthor)
  {
  }

  /** A comment made on a route under /network/anonymous/ is signed "익명". */
  lemma AnonymousRouteSignsAnonymously(posts: Table<Posts.Post>, comments: Table<Comment>, route: BoardRoute,
                                       path: string, req: CommentRequest, requester: Commenter)
    requires |path| >= 19 && path[..19] == "/network/anonymous/"
    requires CreateComment(posts, comments, route, path, req, requester).Ok?
    ensures var (k, comments') := CreateComment(posts, comments, route, path, req, requester).value;
            comments'[k].value.authorName == AnonymousName
  {
    assert path[9..18] == path[..19][9..18] == "anonymous";
    ContainsAt(path, "anonymous", 9);
  }

  /** The parent of a reply is not required to belong to the same post: a
      reply on one post to a comment of another post is accepted and keeps
      that parent. */
  lemma ParentOfAnotherPostAccepted(posts: Table<Posts.Post>, comments: Table<Comment>, board: nat, postId: nat,
                                    path: string, content: string, parent: nat, requester: Commenter)
    requires FilledIn(Some(content))
    requires Has(comments, parent) && comments[parent].value.post != postId
    requires board > 0 && Has(posts, postId) && posts[postId].value.position == Some(board)
    ensures var r := CreateComment(posts, comments, BoardRoute(Some(board), None, None, Some(postId)), path,
                                   CommentRequest(Some(content), None, Some(parent)), requester);
            && r.Ok? && r.value.1[r.value.0].value.post == postId && r.value.1[r.value.0].value.parent == Some(parent)
            && r.value.1[r.value.0].value.post != comments[parent].value.post
  {
    var route := BoardRoute(Some(board), None, None, Some(postId));
    assert CommentFieldErrors(comments, CommentRequest(Some(content), None, Some(parent))) == {};
    assert SelectBoard(route) == Some((PositionBoard, board));
    assert ResolvePost(posts, route) == Ok(postId);
  }

  /** `CommentDetailView.get_object`: the comment `pk` of the resolved post,
      or a validation error. */
  function GetCommentObject(posts: Table<Posts.Post>, comments: Table<Comment>, route: BoardRoute, pk: Option<nat>): (r: Result<nat, CommentError>)
    ensures ResolvePost(posts, route).Err? ==> r == Err(ResolvePost(posts, route).error)
    ensures r.Ok? <==>
              && ResolvePost(posts, route).Ok? && pk.Some? && Has(comments, pk.value)
              && comments[pk.value].value.post == ResolvePost(posts, route).value
    ensures r.Ok? ==> pk == Some(r.value)
    ensures ResolvePost(posts, route).Ok? && r.Err? ==> r.error == CommentNotFound
  {
    match ResolvePost(posts, route)
    case Err(e) => Err(e)
    case Ok(p) =>
      if pk.Some? && Has(comments, pk.value) && comments[pk.value].value.post == p then Ok(pk.value)
      else Err(CommentNotFound)
  }

  /** The detail lookup finds exactly the comments the listing of the same
      route shows. */
  lemma DetailAgreesWithListing(posts: Table<Posts.Post>, comments: Table<Comment>, route: BoardRoute, k: nat)
    ensures GetCommentObject(posts, comments, route, Some(k)).Ok? <==>
              ListComments(posts, comments, route).Ok? && k in ListComments(posts, comments, route).value
  {
  }

  /** The detail view as written: its `get_object` override never calls the
      object-permission check, so the comment is handed to any requester for
      any method. */
  function AccessCommentAsWritten(m: HttpMethod, requester: ProfileId, posts: Table<Posts.Post>,
                                  comments: Table<Comment>, route: BoardRoute, pk: Option<nat>): (r: Result<nat, CommentError>)
    ensures r.Ok? <==> GetCommentObject(posts, comments, route, pk).Ok?
    ensures r.Err? ==> r.error != PermissionDenied
  {
    GetCommentObject(posts, comments, route, pk)
  }

  /** The detail view with the permission class applied to the object it
      returns. */
  function AccessComment(m: HttpMethod, requester: ProfileId, posts: Table<Posts.Post>,
                         comments: Table<Comment>, route: BoardRoute, pk: Option<nat>): (r: Result<nat, CommentError>)
    ensures r.Ok? ==>
              && GetCommentObject(posts, comments, route, pk) == Ok(r.value)
              && Has(posts, comments[r.value].value.post)
              && HasObjectPermission(m, requester, comments[r.value].value, posts[comments[r.value].value.post].value.author)
    ensures GetCommentObject(posts, comments, route, pk).Ok? ==>
              var c := comments[pk.value].value;
              Has(posts, c.post) && (r.Ok? <==> HasObjectPermission(m, requester, c, posts[c.post].value.author))
    ensures GetCommentObject(posts, comments, route, pk).Ok? && r.Err? ==> r.error == PermissionDenied
    ensures GetCommentObject(posts, comments, route, pk).Err? ==> r == GetCommentObject(posts, comments, route, pk)
  {
    match GetCommentObject(posts, comments, route, pk)
    case Err(e) => Err(e)
    case Ok(k) =>
      var c := comments[k].value;
      if HasObjectPermission(m, requester, c, posts[c.post].value.author) then Ok(k) else Err(PermissionDenied)
  }

  /** A private comment by profile 2 on a post by profile 1: profile 3 reads
      it through the detail view as written, and is refused once the
      permission is applied. */
  lemma DetailSkipsPermission()
    ensures var posts := [None, Some(Posts.Post(Some(1), None, None, None, 1, "t", "c"))];
            var comments := [None, Some(Comment(1, 2, "b", "secret", None, true))];
            var route := BoardRoute(Some(1), None, None, Some(1));
            && AccessCommentAsWritten(GET, 3, posts, comments, route, Some(1)) == Ok(1)
            && AccessCommentAsWritten(DELETE, 3, posts, comments, route, Some(1)) == Ok(1)
            && AccessComment(GET, 3, posts, comments, route, Some(1)) == Err(PermissionDenied)
            && AccessComment(DELETE, 3, posts, comments, route, Some(1)) == Err(PermissionDenied)
  {
  }
}

=== FILE: common.dfy ===
/** Shared vocabulary of the model: identifiers, the Option/Result wrappers,
    auto-increment tables, and the way the views read values out of a request
    (Python truthiness and the `int()` conversion). */
module Common {

  type UserId = nat
  type ProfileId = nat

  datatype Option<T> = None | Some(value: T) {
    function GetOr(default: T): T {
      match this
      case Some(v) => v
      case None => default
    }
  }

  datatype Result<T, E> = Ok(value: T) | Err(error: E)

  /** The HTTP verbs a view can be called with. */
  datatype HttpMethod = GET | HEAD | OPTIONS | POST | PUT | PATCH | DELETE

  /** A database table whose primary key is an auto-increment counter that
      starts at 1: row `k` is `t[k]`, slot 0 never holds a row, a deleted row
      is `None`, and a new row gets the next unused key. */
  type Table<T> = seq<Option<T>>

  predicate Has<T>(t: Table<T>, k: nat) {
    0 < k < |t| && t[k].Some?
  }

  /** `Model.objects.create`: the new row gets a positive key no row has used
      before, and every existing slot is kept. */
  function Insert<T>(t: Table<T>, x: T): (r: (nat, Table<T>))
    ensures r.0 > 0 && !Has(t, r.0) && Has(r.1, r.0) && r.1[r.0] == Some(x)
    ensures |t| < |r.1| == r.0 + 1
    ensures forall k :: 0 <= k < |t| ==> r.1[k] == t[k]
    ensures forall k :: |t| <= k < r.0 ==> r.1[k].None?
  {
    if |t| == 0 then (1, [None, Some(x)]) else (|t|, t + [Some(x)])
  }

  /** A URL keyword argument: `None` when the route does not supply it. */
  predicate TruthyId(o: Option<nat>) {
    o.Some? && o.value != 0
  }

  /** Python truthiness of a value that is a string or missing (a query
      parameter, or a JSON string field). */
  predicate Given(q: Option<string>) {
    q.Some? && q.value != ""
  }

  /** A value of a parsed JSON body: missing (`None` in Python), a JSON number,
      or a JSON string. */
  datatype Field = Absent | Number(x: real) | Text(s: string)

  /** Python truthiness: `None`, `0`, `0.0` and `""` are falsy. */
  predicate Truthy(f: Field) {
    match f
    case Absent => false
    case Number(x) => x != 0.0
    case Text(s) => s != ""
  }

  /** Python `int(x)` of a float truncates toward zero. */
  function Trunc(x: real): (n: int)
    ensures x >= 0.0 ==> 0 <= n && n as real <= x < n as real + 1.0
    ensures x < 0.0 ==> n <= 0 && n as real - 1.0 < x <= n as real
  {
    if x >= 0.0 then x.Floor else -((-x).Floor)
  }

  predicate IsDigit(c: char) {
    '0' <= c <= '9'
  }

  predicate AllDigits(s: string) {
    forall i :: 0 <= i < |s| ==> IsDigit(s[i])
  }

  /** The value of a string of decimal digits, most significant first. */
  function DigitsValue(s: string): nat
    requires AllDigits(s)
  {
    if |s| == 0 then 0
    else DigitsValue(s[..|s| - 1]) * 10 + (s[|s| - 1] as int - '0' as int)
  }

  /** Python `int(s)` of a string: an optional sign followed by at least one
      ASCII digit; anything else raises `ValueError` (here `None`). */
  function ParseInt(s: string): (r: Option<int>)
    ensures r.Some? <==>
              || (|s| > 0 && AllDigits(s))
              || (|s| > 1 && (s[0] == '-' || s[0] == '+') && AllDigits(s[1..]))
    ensures r.Some? && s[0] == '-' ==> r.value <= 0
    ensures r.Some? && s[0] != '-' ==> r.value >= 0
  {
    if |s| > 0 && (s[0] == '-' || s[0] == '+') then
      var body := s[1..];
      if |body| > 0 && AllDigits(body) then
        var v: int := DigitsValue(body);
        Some(if s[0] == '-' then -v else v)
      else None
    else if |s| > 0 && AllDigits(s) then Some(DigitsValue(s))
    else None
  }

  /** Python `str(n)` of a natural number. */
  function ShowNat(n: nat): string
  {
    if n < 10 then [('0' as int + n) as char]
    else ShowNat(n / 10) + [('0' as int + n % 10) as char]
  }

  /** Python `str(n)` of an integer. */
  function ShowInt(n: int): string
  {
    if n < 0 then "-" + ShowNat(-n) else ShowNat(n)
  }

  lemma {:induction false} ShowNatDigits(n: nat)
    ensures |ShowNat(n)| > 0 && AllDigits(ShowNat(n))
    ensures DigitsValue(ShowNat(n)) == n
  {
    if n >= 10 {
      ShowNatDigits(n / 10);
      var s := ShowNat(n);
      assert s[..|s| - 1] == ShowNat(n / 10);
    }
  }

  /** `int(str(n)) == n`: the decimal text of every integer is read back by
      `int()` as that integer, so a rating sent as text means the number it
      spells. */
  lemma ParseShowRoundTrip(n: int)
    ensures ParseInt(ShowInt(n)) == Some(n)
  {
    var s := ShowInt(n);
    if n < 0 {
      var digits := ShowNat(-n);
      ShowNatDigits(-n);
      assert s == "-" + digits;
      assert s[0] == '-' && s[1..] == digits;
      var v: int := DigitsValue(digits);
      assert v == -n;
    } else {
      ShowNatDigits(n);
      assert IsDigit(s[0]);
      assert s[0] != '-' && s[0] != '+';
    }
  }

  /** Python `int(value)` of a request value; `None` stands for the
      `TypeError`/`ValueError` it raises. */
  function ToInt(f: Field): (r: Option<int>)
    ensures f.Absent? ==> r.None?
    ensures f.Text? && f.s == "" ==> r.None?
    ensures f.Number? ==> r.Some?
  {
    match f
    case Absent => None
    case Number(x) => Some(Trunc(x))
    case Text(s) => ParseInt(s)
  }

  /** Python `float(value)`; the parser of decimal text is a parameter. */
  function ToFloat(f: Field, parseFloat: string -> Option<real>): (r: Option<real>)
    ensures f.Number? ==> r == Some(f.x)
    ensures f.Absent? ==> r.None?
  {
    match f
    case Absent => None
    case Number(x) => Some(x)
    case Text(s) => parseFloat(s)
  }

  /** The characters for which Python's `str.isspace` holds, which are the
      ones `str.strip()` removes. */
  const SpaceChars: set<char> := {
      '\t', '\n', '\U{B}', '\U{C}', '\r', '\U{1C}', '\U{1D}', '\U{1E}', '\U{1F}', ' ', '\U{85}', '\U{A0}', '\U{1680}',
      '\U{2000}', '\U{2001}', '\U{2002}', '\U{2003}', '\U{2004}', '\U{2005}', '\U{2006}', '\U{2007}', '\U{2008}', '\U{2009}', '\U{200A}',
      '\U{2028}', '\U{2029}', '\U{202F}', '\U{205F}', '\U{3000}'}

  predicate IsSpace(c: char) {
    c in SpaceChars
  }

  /** Text that is empty once surrounding whitespace is stripped. */
  predicate Blank(s: string) {
    forall i | 0 <= i < |s| :: IsSpace(s[i])
  }

  /** `s.lstrip()`: `s` without its leading whitespace. */
  function TrimStart(s: string): (r: string)
    ensures |r| <= |s| && r == s[|s| - |r|..]
    ensures |r| > 0 ==> !IsSpace(r[0])
    ensures Blank(s[..|s| - |r|])
  {
    if |s| > 0 && IsSpace(s[0]) then
      var r := TrimStart(s[1..]);
      assert s[..|s| - |r|] == [s[0]] + s[1..][..|s[1..]| - |r|];
      r
    else s
  }

  /** `s.rstrip()`: `s` without its trailing whitespace. */
  function TrimEnd(s: string): (r: string)
    ensures |r| <= |s| && r == s[..|r|]
    ensures |r| > 0 ==> !IsSpace(r[|r| - 1])
    ensures Blank(s[|r|..])
  {
    if |s| > 0 && IsSpace(s[|s| - 1]) then
      var t := s[..|s| - 1];
      var r := TrimEnd(t);
      assert s[|r|..] == t[|r|..] + [s[|s| - 1]];
      r
    else s
  }

  lemma BlankConcat(a: string, b: string)
    requires Blank(a) && Blank(b)
    ensures Blank(a + b)
  {
    forall j | 0 <= j < |a + b| ensures IsSpace((a + b)[j]) {
      if j < |a| { assert (a + b)[j] == a[j]; } else { assert (a + b)[j] == b[j - |a|]; }
    }
  }

  /** Python `s.strip()`: the text between the first and the last character
      that is not whitespace. */
  function Trim(s: string): (r: string)
    ensures |r| <= |s|
    ensures r == "" <==> Blank(s)
    ensures r != "" ==> !IsSpace(r[0]) && !IsSpace(r[|r| - 1])
  {
    StripEmptyIffBlank(s);
    TrimEnd(TrimStart(s))
  }

  /** Stripping only removes whitespace from the two ends: what remains is a
      slice of the text with blank text on either side. */
  lemma TrimIsSlice(s: string) returns (i: nat)
    ensures var r := Trim(s);
            i <= |s| - |r| && s[i..i + |r|] == r && Blank(s[..i]) && Blank(s[i + |r|..])
  {
    var a := TrimStart(s);
    var r := TrimEnd(a);
    i := |s| - |a|;
    TrimParts(s, i, a, r);
  }

  /** The two stripping steps seen as slices of the input. */
  lemma TrimParts(s: string, i: nat, a: string, r: string)
    requires i <= |s| && a == s[i..] && Blank(s[..i])
    requires |r| <= |a| && r == a[..|r|] && Blank(a[|r|..])
    requires r == Trim(s)
    ensures i <= |s| - |Trim(s)| && s[i..i + |Trim(s)|] == Trim(s)
    ensures Blank(s[..i]) && Blank(s[i + |Trim(s)|..])
  {
    SliceOfSuffix(s, i, a, r);
    BlankSuffixOfSuffix(s, i, a, |r|);
  }

  /** A prefix of a suffix of `s` is a slice of `s`. */
  lemma SliceOfSuffix(s: string, i: nat, a: string, r: string)
    requires i <= |s| && a == s[i..] && |r| <= |a| && r == a[..|r|]
    ensures s[i..i + |r|] == r
  {
  }

  /** A blank tail of a suffix of `s` is a blank tail of `s`. */
  lemma BlankSuffixOfSuffix(s: string, i: nat, a: string, n: nat)
    requires i <= |s| && a == s[i..] && n <= |a| && Blank(a[n..])
    ensures Blank(s[i + n..])
  {
    assert s[i + n..] == a[n..];
  }

  lemma StripEmptyIffBlank(s: string)
    ensures TrimEnd(TrimStart(s)) == "" <==> Blank(s)
  {
    var a := TrimStart(s);
    var r := TrimEnd(a);
    var i := |s| - |a|;
    if r == "" {
      assert a[|r|..] == a;
      BlankSplit(s, i, a);
    } else {
      assert r[0] == a[0] == s[i];
    }
  }

  /** Text whose head and tail are both blank is blank. */
  lemma BlankSplit(s: string, i: nat, a: string)
    requires i <= |s| && a == s[i..] && Blank(s[..i]) && Blank(a)
    ensures Blank(s)
  {
    assert s == s[..i] + a;
    BlankConcat(s[..i], a);
  }

  /** Stripping twice strips nothing more. */
  lemma TrimIdempotent(s: string)
    ensures Trim(Trim(s)) == Trim(s)
  {
    var r := Trim(s);
    if r != "" {
      assert TrimStart(r) == r;
      assert TrimEnd(r) == r;
    }
  }

  /** A submitted text a non-blank DRF text field accepts: present, not
      blank once stripped, and free of NUL characters. */
  predicate FilledIn(v: Option<string>) {
    v.Some? && !Blank(v.value) && '\0' !in v.value
  }

  /** Why a DRF text field refused a value. */
  datatype TextProblem = Required | BlankText | TooLong | NullCharacter

  /** A DRF `CharField` as a model serializer builds it for a non-blank text
      column: a missing value is required, the value is stripped of
      surrounding whitespace, nothing may remain blank, the optional length
      bound applies to the stripped text, the validator every `CharField`
      carries refuses a NUL character, and the stripped text is the
      validated value. When the text is both too long and holds a NUL, the
      length problem is the one reported. */
  function CheckText(v: Option<string>, maxLength: Option<nat>): (r: Result<string, TextProblem>)
    ensures r == Err(Required) <==> v.None?
    ensures r.Ok? <==>
              && v.Some? && !Blank(v.value) && '\0' !in v.value
              && (maxLength.None? || |Trim(v.value)| <= maxLength.value)
    ensures r.Ok? ==> r.value == Trim(v.value) && r.value != "" && '\0' !in r.value
    ensures v.Some? && Blank(v.value) ==> r == Err(BlankText)
    ensures v.Some? && !Blank(v.value) && '\0' in v.value && (maxLength.None? || |Trim(v.value)| <= maxLength.value) ==>
              r == Err(NullCharacter)
    ensures maxLength.None? ==> (r.Ok? <==> FilledIn(v))
  {
    match v
    case None => Err(Required)
    case Some(s) =>
      var t := Trim(s);
      TrimKeepsNul(s);
      if t == "" then Err(BlankText)
      else if maxLength.Some? && |t| > maxLength.value then Err(TooLong)
      else if '\0' in t then Err(NullCharacter)
      else Ok(t)
  }

  /** Text that neither begins nor ends with whitespace is its own stripped
      form. */
  lemma TrimUnspaced(s: string)
    requires s != "" && !IsSpace(s[0]) && !IsSpace(s[|s| - 1])
    ensures Trim(s) == s
  {
    assert TrimStart(s) == s;
    assert TrimEnd(s) == s;
  }

  /** Stripping keeps every NUL character: NUL is not whitespace, so it is
      never cut from either end. */
  lemma TrimKeepsNul(s: string)
    ensures '\0' in Trim(s) <==> '\0' in s
  {
    var i := TrimIsSlice(s);
    NulInMiddle(s, i, Trim(s));
  }

  /** A character that is not whitespace lies in the middle piece of a text
      cut into blank, middle and blank pieces. */
  lemma NulInMiddle(s: string, i: nat, r: string)
    requires i + |r| <= |s| && s[i..i + |r|] == r
    requires Blank(s[..i]) && Blank(s[i + |r|..])
    ensures '\0' in r <==> '\0' in s
  {
    assert !IsSpace('\0');
    forall k | 0 <= k < i
      ensures IsSpace(s[k])
    {
      assert s[..i][k] == s[k];
    }
    forall k | i + |r| <= k < |s|
      ensures IsSpace(s[k])
    {
      assert s[i + |r|..][k - i - |r|] == s[k];
    }
    if '\0' in s {
      var j :| 0 <= j < |s| && s[j] == '\0';
      assert i <= j < i + |r|;
      assert r[j - i] == s[j];
    }
    if '\0' in r {
      var j :| 0 <= j < |r| && r[j] == '\0';
      assert s[i + j] == r[j];
    }
  }

  /** Python `needle in s` on strings. */
  predicate Contains(s: string, needle: string)
    decreases |s|
  {
    if |s| < |needle| then false
    else s[..|needle|] == needle || Contains(s[1..], needle)
  }

  lemma {:induction false} ContainsAt(s: string, needle: string, i: nat)
    requires i + |needle| <= |s| && s[i..i + |needle|] == needle
    ensures Contains(s, needle)
    decreases i
  {
    if i > 0 {
      assert s[1..][i - 1..i - 1 + |needle|] == s[i..i + |needle|];
      ContainsAt(s[1..], needle, i - 1);
    }
  }
}

=== FILE: posts.dfy ===
/** Board posts (main/views/post.py): listing the posts of a board, creating
    a post, and the detail lookup by board and post id.

    The post model declares three nullable board relations (`position`,
    `ftf`, `anonymous`); the post views filter on a fourth, `board`, which the
    shown model does not declare. A post here carries all four. */
module Posts {
  import opened Common

  datatype Post = Post(
    position: Option<nat>,
    ftf: Option<nat>,
    anonymous: Option<nat>,
    board: Option<nat>,
    author: ProfileId,
    title: string,
    content: string)

  /** The fields the post serializer can refuse on a create request. */
  datatype PostField = AuthorField | TitleField | ContentField

  /** `Invalid` is the serializer's refusal (400), naming every failing field;
      `MissingTitleOrContent` and `BoardNotFound` are the view's own
      validation errors (400); `PostNotFound` is the detail view's 404. */
  datatype PostError = Invalid(fields: set<PostField>) | MissingTitleOrContent | BoardNotFound | PostNotFound

  /** The title column's `max_length`. */
  const TitleMaxLength: nat := 200

  /** `PostListView.get_queryset`: no (or a zero) board id lists nothing;
      otherwise exactly the posts of that board. */
  function ListPosts(posts: Table<Post>, boardId: Option<nat>): (r: set<nat>)
    ensures !TruthyId(boardId) ==> r == {}
    ensures TruthyId(boardId) ==>
              forall k: nat :: k in r <==> Has(posts, k) && posts[k].value.board == boardId
  {
    if !TruthyId(boardId) then {}
    else set k: nat | 0 < k < |posts| && posts[k].Some? && posts[k].value.board == boardId
  }

  /** `PostDetailView.get_object`: `Post.objects.get(board_id=..., id=pk)`,
      404 otherwise. A missing board id filters on `board IS NULL`. */
  function GetPost(posts: Table<Post>, boardId: Option<nat>, pk: Option<nat>): (r: Result<Post, PostError>)
    ensures r.Ok? <==> pk.Some? && Has(posts, pk.value) && posts[pk.value].value.board == boardId
    ensures r.Ok? ==> r.value == posts[pk.value].value
    ensures r.Err? ==> r.error == PostNotFound
  {
    if pk.Some? && Has(posts, pk.value) && posts[pk.value].value.board == boardId then Ok(posts[pk.value].value)
    else Err(PostNotFound)
  }

  /** The post serializer's checks of a create body: `author` is a required
      primary key of an existing profile; `title` and `content` are required
      and not blank once stripped; the stripped title has at most 200
      characters. The result is the set of failing fields. */
  function PostFieldErrors(profiles: set<ProfileId>, title: Option<string>, content: Option<string>,
                           authorPk: Option<nat>): (r: set<PostField>)
    ensures AuthorField in r <==> authorPk.None? || authorPk.value !in profiles
    ensures TitleField in r <==> !FilledIn(title) || |Trim(title.value)| > TitleMaxLength
    ensures ContentField in r <==> !FilledIn(content)
  {
    var authorBad := authorPk.None? || authorPk.value !in profiles;
    var titleBad := CheckText(title, Some(TitleMaxLength)).Err?;
    var contentBad := CheckText(content, None).Err?;
    assert titleBad <==> !FilledIn(title) || |Trim(title.value)| > TitleMaxLength;
    assert contentBad <==> !FilledIn(content);
    Failing(authorBad, titleBad, contentBad)
  }

  /** The set of fields whose flag is set. */
  function Failing(authorBad: bool, titleBad: bool, contentBad: bool): (r: set<PostField>)
    ensures AuthorField in r <==> authorBad
    ensures TitleField in r <==> titleBad
    ensures ContentField in r <==> contentBad
  {
    (if authorBad then {AuthorField} else {})
    + (if titleBad then {TitleField} else {})
    + (if contentBad then {ContentField} else {})
  }

  /** `PostListView` create: the create mixin validates the body with the
      serializer first; then the view refuses an empty or missing title or
      content, looks the board up, and saves the post on that board with the
      requester's profile as author (whatever `author` the body named) and
      the title and content exactly as sent. */
  function CreatePost(profiles: set<ProfileId>, boards: set<nat>, posts: Table<Post>, boardId: Option<nat>,
                      title: Option<string>, content: Option<string>, authorPk: Option<nat>,
                      author: ProfileId): (r: Result<(nat, Table<Post>), PostError>)
    ensures PostFieldErrors(profiles, title, content, authorPk) != {} ==>
              r == Err(Invalid(PostFieldErrors(profiles, title, content, authorPk)))
    ensures !Given(title) || !Given(content) ==> r.Err? && r.error.Invalid?
    ensures PostFieldErrors(profiles, title, content, authorPk) == {} && (boardId.None? || boardId.value !in boards) ==>
              r == Err(BoardNotFound)
    ensures r.Ok? <==> PostFieldErrors(profiles, title, content, authorPk) == {} && boardId.Some? && boardId.value in boards
    ensures r.Ok? ==>
              var (k, posts') := r.value;
              && !Has(posts, k) && Has(posts', k)
              && posts'[k].value == Post(None, None, None, boardId, author, title.value, content.value)
              && |posts| < |posts'| == k + 1
              && (forall j | 0 <= j < |posts| :: posts'[j] == posts[j])
              && (forall j | |posts| <= j < k :: posts'[j].None?)
  {
    var errors := PostFieldErrors(profiles, title, content, authorPk);
    if errors != {} then Err(Invalid(errors))
    else if !Given(title) || !Given(content) then Err(MissingTitleOrContent)
    else if boardId.None? || boardId.value !in boards then Err(BoardNotFound)
    else Ok(Insert(posts, Post(None, None, None, boardId, author, title.value, content.value)))
  }

  /** The view's own check for an empty title or content never fires: every
      body it would refuse has already been refused by the serializer. */
  lemma TitleCheckShadowed(profiles: set<ProfileId>, boards: set<nat>, posts: Table<Post>, boardId: Option<nat>,
                           title: Option<string>, content: Option<string>, authorPk: Option<nat>, author: ProfileId)
    ensures CreatePost(profiles, boards, posts, boardId, title, content, authorPk, author) != Err(MissingTitleOrContent)
  {
  }

  /** A whitespace-only title is refused by the serializer, though the view's
      own check (a truthy title) would have let it through. */
  lemma BlankTitleRefused(profiles: set<ProfileId>, boards: set<nat>, posts: Table<Post>, boardId: Option<nat>,
                          title: string, content: Option<string>, authorPk: Option<nat>, author: ProfileId)
    requires title != "" && Blank(title)
    ensures Given(Some(title))
    ensures var r := CreatePost(profiles, boards, posts, boardId, Some(title), content, authorPk, author);
            r.Err? && r.error.Invalid? && TitleField in r.error.fields
  {
    assert TitleField in PostFieldErrors(profiles, Some(title), content, authorPk);
  }

  /** For a real board id, the detail lookup finds exactly the listed posts. */
  lemma DetailAgreesWithList(posts: Table<Post>, boardId: Option<nat>, k: nat)
    requires TruthyId(boardId)
    ensures GetPost(posts, boardId, Some(k)).Ok? <==> k in ListPosts(posts, boardId)
  {
  }

  /** A created post is listed on its board and found by the detail lookup,
      and every post listed before is still listed. */
  lemma CreatedPostIsFound(profiles: set<ProfileId>, boards: set<nat>, posts: Table<Post>, boardId: Option<nat>,
                           title: Option<string>, content: Option<string>, authorPk: Option<nat>, author: ProfileId)
    requires CreatePost(profiles, boards, posts, boardId, title, content, authorPk, author).Ok?
    ensures var (k, posts') := CreatePost(profiles, boards, posts, boardId, title, content, authorPk, author).value;
            && GetPost(posts', boardId, Some(k)) == Ok(Post(None, None, None, boardId, author, title.value, content.value))
            && (TruthyId(boardId) ==> ListPosts(posts', boardId) == ListPosts(posts, boardId) + {k})
  {
    var (k, posts') := CreatePost(profiles, boards, posts, boardId, title, content, authorPk, author).value;
    if TruthyId(boardId) {
      ListedAfterInsert(posts, posts', k, boardId);
    }
  }

  /** A table grown by one new row on a board lists that row in addition to
      what it listed before. */
  lemma ListedAfterInsert(posts: Table<Post>, posts': Table<Post>, k: nat, boardId: Option<nat>)
    requires TruthyId(boardId) && 0 < k && |posts| <= k && |posts'| == k + 1
    requires posts'[k].Some? && posts'[k].value.board == boardId
    requires forall j | 0 <= j < |posts| :: posts'[j] == posts[j]
    requires forall j | |posts| <= j < k :: posts'[j].None?
    ensures ListPosts(posts', boardId) == ListPosts(posts, boardId) + {k}
  {
    forall j: nat ensures j in ListPosts(posts', boardId) <==> j in ListPosts(posts, boardId) + {k} {
      if j < |posts| {
        assert posts'[j] == posts[j];
      }
    }
  }

}

=== FILE: profile_validation.dfy ===
/** Profile field validation (`ProfileSerializer` in
    main/serializers/profile.py, over the `Profile` model of
    main/models/profile.py).

    Each `validate_<field>` hook either returns its value unchanged or raises
    a validation error. The serializer runs each field's model-derived checks
    first (the model's choice list, or for the nickname the text field's
    stripping, blank, length and NUL checks) and the hook second, and reports
    the failing fields together. */
module ProfileValidation {
  import opened Common

  datatype ProfileField = Nickname | Age | Gender | Job | Area

  datatype FieldError =
    | Blank
    | TooLong
    | NullCharacter
    | InvalidChoice
    | NicknameTaken
    | NegativeAge
    | InvalidGender
    | InvalidJob
    | InvalidArea

  /** The submitted values, after type conversion; the nickname is the text
      as submitted, before stripping. */
  datatype ProfileInput = ProfileInput(nickname: string, age: int, gender: string, job: string, area: string)

  /** `Profile.GENDER_CHOICES` and `Profile.JOB_CHOICES`, keys only. */
  const GenderChoices: seq<string> := ["M", "F"]
  const JobChoices: seq<string> := ["FE", "BE", "PM", "DS", "BL", "MK"]

  /** The job list the `validate_job` hook checks against. */
  const HookJobs: seq<string> := ["FE", "BE", "ST", "CT", "MK"]

  /** The nickname column's `max_length`. */
  const NicknameMaxLength: nat := 30

  /** `validate_nickname`: a nickname some existing profile holds is taken. */
  function ValidateNickname(taken: set<string>, v: string): (r: Result<string, FieldError>)
    ensures r.Ok? <==> v !in taken
    ensures r.Ok? ==> r.value == v
    ensures r.Err? ==> r.error == NicknameTaken
  {
    if v in taken then Err(NicknameTaken) else Ok(v)
  }

  /** `validate_age`: negative ages are refused; zero is accepted. */
  function ValidateAge(v: int): (r: Result<int, FieldError>)
    ensures r.Ok? <==> v >= 0
    ensures r.Ok? ==> r.value == v
    ensures r.Err? ==> r.error == NegativeAge
  {
    if v < 0 then Err(NegativeAge) else Ok(v)
  }

  /** `validate_gender`: exactly "M" or "F". */
  function ValidateGender(v: string): (r: Result<string, FieldError>)
    ensures r.Ok? <==> v == "M" || v == "F"
    ensures r.Ok? ==> r.value == v
    ensures r.Err? ==> r.error == InvalidGender
  {
    if v !in ["M", "F"] then Err(InvalidGender) else Ok(v)
  }

  /** `validate_job`: one of the hook's own five codes. */
  function ValidateJob(v: string): (r: Result<string, FieldError>)
    ensures r.Ok? <==> v in {"FE", "BE", "ST", "CT", "MK"}
    ensures r.Ok? ==> r.value == v
    ensures r.Err? ==> r.error == InvalidJob
  {
    if v !in HookJobs then Err(InvalidJob) else Ok(v)
  }

  /** The first components of a choice list: the values a choice field
      accepts. */
  function ChoiceKeys(choices: seq<(string, string)>): (keys: seq<string>)
    ensures |keys| == |choices|
    ensures forall i | 0 <= i < |choices| :: keys[i] == choices[i].0
  {
    seq(|choices|, i requires 0 <= i < |choices| => choices[i].0)
  }

  /** `validate_area`: the first component of some area choice. */
  function ValidateArea(choices: seq<(string, string)>, v: string): (r: Result<string, FieldError>)
    ensures r.Ok? <==> exists i :: 0 <= i < |choices| && choices[i].0 == v
    ensures r.Ok? ==> r.value == v
    ensures r.Err? ==> r.error == InvalidArea
  {
    var keys := ChoiceKeys(choices);
    if v !in keys then Err(InvalidArea) else Ok(v)
  }

  /** The model-derived check of a field with a choice list: a value outside
      the list is refused as an invalid choice. Blank values are not allowed
      on these fields, so the empty value is refused the same way. */
  function CheckChoice(choices: seq<string>, v: string): (r: Result<string, FieldError>)
    ensures r.Ok? <==> v in choices
    ensures r.Ok? ==> r.value == v
    ensures r.Err? ==> r.error == InvalidChoice
  {
    if v !in choices then Err(InvalidChoice) else Ok(v)
  }

  /** Runs `hook` on the value a model-derived check accepted. */
  function Then(r: Result<string, FieldError>, hook: string -> Result<string, FieldError>): (s: Result<string, FieldError>)
    ensures s.Ok? <==> r.Ok? && hook(r.value).Ok?
    ensures s.Ok? ==> s.value == hook(r.value).value
  {
    if r.Err? then r else hook(r.value)
  }

  /** The nickname field: the text column's checks (stripped, not blank, at
      most 30 characters once stripped, no NUL), then `validate_nickname` on
      the stripped text. */
  function NicknameField(taken: set<string>, v: string): (r: Result<string, FieldError>)
    ensures r.Ok? <==> !Common.Blank(v) && '\0' !in v && |Trim(v)| <= NicknameMaxLength && Trim(v) !in taken
    ensures r.Ok? ==> r.value == Trim(v)
    ensures Common.Blank(v) ==> r == Err(FieldError.Blank)
    ensures !Common.Blank(v) && |Trim(v)| > NicknameMaxLength ==> r == Err(FieldError.TooLong)
    ensures !Common.Blank(v) && '\0' !in v && |Trim(v)| <= NicknameMaxLength && Trim(v) in taken ==> r == Err(NicknameTaken)
  {
    match CheckText(Some(v), Some(NicknameMaxLength))
    case Ok(t) => ValidateNickname(taken, t)
    case Err(e) =>
      Err(if e.BlankText? then FieldError.Blank
          else if e.TooLong? then FieldError.TooLong
          else FieldError.NullCharacter)
  }

  /** The gender field: the model's choice list, then `validate_gender`. */
  function GenderField(v: string): (r: Result<string, FieldError>)
    ensures r.Ok? ==> r.value == v
    ensures v !in GenderChoices ==> r == Err(InvalidChoice)
    ensures v in GenderChoices && v != "M" && v != "F" ==> r == Err(InvalidGender)
  {
    Then(CheckChoice(GenderChoices, v), ValidateGender)
  }

  /** The job field: the model's choice list, then `validate_job`. */
  function JobField(v: string): (r: Result<string, FieldError>)
    ensures r.Ok? ==> r.value == v
    ensures v !in JobChoices ==> r == Err(InvalidChoice)
    ensures v in JobChoices && v !in HookJobs ==> r == Err(InvalidJob)
  {
    Then(CheckChoice(JobChoices, v), ValidateJob)
  }

  /** The area field, taken to be declared like gender and job, with the
      area choices as its choice list: the choice check, then
      `validate_area`. The hook repeats the choice list, so every refusal is
      an invalid choice, the empty value included. */
  function AreaField(choices: seq<(string, string)>, v: string): (r: Result<string, FieldError>)
    ensures r.Ok? <==> exists i :: 0 <= i < |choices| && choices[i].0 == v
    ensures r.Ok? ==> r.value == v
    ensures r.Err? ==> r.error == InvalidChoice
  {
    Then(CheckChoice(ChoiceKeys(choices), v), w => ValidateArea(choices, w))
  }

  /** The gender hook only repeats the model's choice list. */
  lemma GenderFieldIsChoiceList(v: string)
    ensures GenderField(v).Ok? <==> v in GenderChoices
  {
  }

  /** The two job lists disagree: the serializer accepts exactly the codes
      on both, so "ST" and "CT" (only in the hook) and "PM", "DS", "BL" (only
      on the model) are all refused. */
  lemma JobFieldAcceptsBothLists(v: string)
    ensures JobField(v).Ok? <==> v in {"FE", "BE", "MK"}
  {
    if v in {"FE", "BE", "MK"} {
      assert v in JobChoices && v in HookJobs;
    } else if v in JobChoices {
      assert v in {"PM", "DS", "BL"};
      assert v !in HookJobs;
    }
  }

  /** The whole serializer: each field is checked independently and the
      failing fields are reported together; the validated data is the input
      with its nickname stripped. */
  function ValidateProfile(taken: set<string>, areaChoices: seq<(string, string)>, p: ProfileInput): (r: Result<ProfileInput, map<ProfileField, FieldError>>)
    ensures r.Ok? <==>
              && NicknameField(taken, p.nickname).Ok? && ValidateAge(p.age).Ok? && GenderField(p.gender).Ok?
              && JobField(p.job).Ok? && AreaField(areaChoices, p.area).Ok?
    ensures r.Ok? ==> r.value == p.(nickname := Trim(p.nickname))
    ensures r.Err? ==>
              && r.error != map[]
              && (Nickname in r.error <==> NicknameField(taken, p.nickname).Err?)
              && (Age in r.error <==> p.age < 0)
              && (Gender in r.error <==> GenderField(p.gender).Err?)
              && (Job in r.error <==> JobField(p.job).Err?)
              && (Area in r.error <==> AreaField(areaChoices, p.area).Err?)
              && (Nickname in r.error ==> r.error[Nickname] == NicknameField(taken, p.nickname).error)
              && (Age in r.error ==> r.error[Age] == NegativeAge)
              && (Gender in r.error ==> r.error[Gender] == GenderField(p.gender).error)
              && (Job in r.error ==> r.error[Job] == JobField(p.job).error)
              && (Area in r.error ==> r.error[Area] == AreaField(areaChoices, p.area).error)
  {
    var nickname := NicknameField(taken, p.nickname);
    var errors := Report(nickname, if p.age < 0 then Err(NegativeAge) else Ok(""), GenderField(p.gender),
                         JobField(p.job), AreaField(areaChoices, p.area));
    if errors.Keys == {} then Ok(p.(nickname := nickname.value)) else Err(errors)
  }

  /** The error report built from the five field results: a field is listed,
      with its error, exactly when its check failed. */
  function Report(nickname: Result<string, FieldError>, age: Result<string, FieldError>,
                  gender: Result<string, FieldError>, job: Result<string, FieldError>,
                  area: Result<string, FieldError>): (e: map<ProfileField, FieldError>)
    ensures Nickname in e <==> nickname.Err?
    ensures Age in e <==> age.Err?
    ensures Gender in e <==> gender.Err?
    ensures Job in e <==> job.Err?
    ensures Area in e <==> area.Err?
    ensures e.Keys == {} <==> nickname.Ok? && age.Ok? && gender.Ok? && job.Ok? && area.Ok?
    ensures Nickname in e ==> e[Nickname] == nickname.error
    ensures Age in e ==> e[Age] == age.error
    ensures Gender in e ==> e[Gender] == gender.error
    ensures Job in e ==> e[Job] == job.error
    ensures Area in e ==> e[Area] == area.error
  {
    var e5 := Collect(Area, area, map[]);
    var e4 := Collect(Job, job, e5);
    var e3 := Collect(Gender, gender, e4);
    var e2 := Collect(Age, age, e3);
    var e := Collect(Nickname, nickname, e2);
    assert nickname.Err? ==> Nickname in e;
    e
  }

  /** Adds a field's error, if it has one, to the errors found so far. */
  function Collect(f: ProfileField, r: Result<string, FieldError>, errors: map<ProfileField, FieldError>): (e: map<ProfileField, FieldError>)
    ensures forall g :: g in e <==> g in errors || (g == f && r.Err?)
    ensures r.Err? ==> e[f] == r.error
    ensures forall g | g in errors && g != f :: e[g] == errors[g]
  {
    if r.Err? then errors[f := r.error] else errors
  }

  /** A profile that passes is accepted whatever the other profiles hold,
      as long as its nickname stays free. */
  lemma AcceptedWithFewerTaken(taken: set<string>, fewer: set<string>, areaChoices: seq<(string, string)>, p: ProfileInput)
    requires fewer <= taken
    requires ValidateProfile(taken, areaChoices, p).Ok?
    ensures ValidateProfile(fewer, areaChoices, p) == ValidateProfile(taken, areaChoices, p)
  {
  }

  /** A concrete request: a taken nickname, age -1 and job "PM" are reported
      together, while the valid gender and area are not. */
  lemma ErrorsReportedTogether(p: ProfileInput, areaChoices: seq<(string, string)>)
    requires p == ProfileInput("nomad", -1, "F", "PM", "GN") && areaChoices == [("GN", "Gangnam")]
    ensures ValidateProfile({"nomad"}, areaChoices, p)
              == Err(map[Nickname := NicknameTaken, Age := NegativeAge, Job := InvalidJob])
  {
    TakenNickname(p.nickname);
    GenderPassesJobFails(p.gender, p.job);
    assert AreaField(areaChoices, p.area).Ok? by { assert areaChoices[0].0 == p.area; }
    var r := ValidateProfile({"nomad"}, areaChoices, p);
    assert r.Err?;
    ThreeErrors(r.error);
  }

  /** Helper for the concrete request above: a report holding exactly the
      nickname, age and job entries is that three-entry map. */
  lemma ThreeErrors(m: map<ProfileField, FieldError>)
    requires Gender !in m && Area !in m
    requires Nickname in m && Age in m && Job in m
    requires m[Nickname] == NicknameTaken && m[Age] == NegativeAge && m[Job] == InvalidJob
    ensures m == map[Nickname := NicknameTaken, Age := NegativeAge, Job := InvalidJob]
  {
    var expected := map[Nickname := NicknameTaken, Age := NegativeAge, Job := InvalidJob];
    forall f: ProfileField
      ensures f in m <==> f in expected
    {
      match f
      case Nickname =>
      case Age =>
      case Gender =>
      case Job =>
      case Area =>
    }
    assert m.Keys == expected.Keys;
  }

  /** Helper for the concrete request above: "nomad" is checked as itself
      and is taken. */
  lemma TakenNickname(nickname: string)
    requires nickname == "nomad"
    ensures NicknameField({"nomad"}, nickname) == Err(NicknameTaken)
  {
    assert !IsSpace(nickname[0]) && !IsSpace(nickname[4]) && '\0' !in nickname;
    TrimUnspaced(nickname);
  }

  /** Helper for the concrete request above: "F" passes the gender field,
      and "PM" is a job the hook does not know. */
  lemma GenderPassesJobFails(gender: string, job: string)
    requires gender == "F" && job == "PM"
    ensures GenderField(gender).Ok? && JobField(job) == Err(InvalidJob)
  {
    assert gender in GenderChoices;
    assert job in JobChoices && job !in HookJobs;
  }
}

=== FILE: proximity.dfy ===
/** Proximity search over the cafe catalog (main/views/cafe.py): the
    single-user search within 1 km, the two-user search within 5 km of the
    midpoint, and the lookup of one cafe by name.

    The great-circle distance is evaluated by the database in floating point;
    here it is an uninterpreted function, so every property below holds for
    any distance whatsoever. The database's `order_by("distance")` fixes no
    order among cafes at equal distance: the model keeps them in catalog
    order, and no contract here assumes any order among them. */
module Proximity {
  import opened Common

  datatype Cafe = Cafe(id: nat, name: string, latitude: real, longitude: real)

  datatype Point = Point(latitude: real, longitude: real)

  /** Distance in kilometres from a reference point to a cafe. */
  type DistanceFn = (Point, Cafe) -> real

  const NearbyRadius: real := 1.0
  const MidpointRadius: real := 5.0
  const ResultLimit: nat := 5

  datatype SearchError = MissingCoordinates | NonNumericCoordinates

  datatype LookupError = NoNameGiven | NoSuchCafe | SeveralCafes

  /** How many catalog entries lie within `radius` of `p`. */
  function CountWithin(cafes: seq<Cafe>, dist: DistanceFn, p: Point, radius: real): nat
  {
    if |cafes| == 0 then 0
    else (if dist(p, cafes[0]) <= radius then 1 else 0) + CountWithin(cafes[1..], dist, p, radius)
  }

  /** The catalog filtered to `distance <= radius`, in catalog order. */
  function Within(cafes: seq<Cafe>, dist: DistanceFn, p: Point, radius: real): (r: seq<Cafe>)
    ensures |r| == CountWithin(cafes, dist, p, radius)
    ensures forall x | x in r :: dist(p, x) <= radius
    ensures forall x :: multiset(r)[x] == if dist(p, x) <= radius then multiset(cafes)[x] else 0
  {
    if |cafes| == 0 then []
    else
      assert cafes == [cafes[0]] + cafes[1..];
      if dist(p, cafes[0]) <= radius then [cafes[0]] + Within(cafes[1..], dist, p, radius)
      else Within(cafes[1..], dist, p, radius)
  }

  predicate SortedBy(s: seq<Cafe>, dist: DistanceFn, p: Point) {
    forall i, j | 0 <= i < j < |s| :: dist(p, s[i]) <= dist(p, s[j])
  }

  /** Insert `x` into a list sorted by distance, in front of the cafes at
      the same distance or farther. */
  function InsertByDistance(x: Cafe, s: seq<Cafe>, dist: DistanceFn, p: Point): (r: seq<Cafe>)
    requires SortedBy(s, dist, p)
    ensures SortedBy(r, dist, p)
    ensures multiset(r) == multiset(s) + multiset{x}
    ensures forall y | y in r :: y in s || y == x
  {
    if |s| == 0 then [x]
    else if dist(p, x) <= dist(p, s[0]) then
      SortedCons(x, s, dist, p);
      [x] + s
    else
      var rest := InsertByDistance(x, s[1..], dist, p);
      SortedCons(s[0], rest, dist, p);
      assert s == [s[0]] + s[1..];
      [s[0]] + rest
  }

  /** Putting in front a cafe no farther than any of a sorted list keeps it
      sorted. */
  lemma SortedCons(a: Cafe, s: seq<Cafe>, dist: DistanceFn, p: Point)
    requires SortedBy(s, dist, p)
    requires forall y | y in s :: dist(p, a) <= dist(p, y)
    ensures SortedBy([a] + s, dist, p)
  {
    var t := [a] + s;
    forall i, j | 0 <= i < j < |t| ensures dist(p, t[i]) <= dist(p, t[j]) {
      if i > 0 {
        assert t[i] == s[i - 1] && t[j] == s[j - 1];
      } else {
        assert t[j] == s[j - 1] && t[j] in s;
      }
    }
  }

  /** Order a list by ascending distance (insertion sort from the back, so
      cafes at equal distance keep their relative order). */
  function SortByDistance(s: seq<Cafe>, dist: DistanceFn, p: Point): (r: seq<Cafe>)
    ensures SortedBy(r, dist, p)
    ensures multiset(r) == multiset(s)
  {
    if |s| == 0 then []
    else
      assert s == [s[0]] + s[1..];
      InsertByDistance(s[0], SortByDistance(s[1..], dist, p), dist, p)
  }

  /** Two cafes at the same distance come out in catalog order. */
  lemma TiesKeepCatalogOrder(a: Cafe, b: Cafe, dist: DistanceFn, p: Point)
    requires dist(p, a) == dist(p, b)
    ensures SortByDistance([a, b], dist, p) == [a, b]
  {
    assert [a, b][1..] == [b];
    assert SortByDistance([b], dist, p) == [b] by {
      assert [b][1..] == [];
    }
  }

  /** `filter(distance__lte=radius).order_by("distance")[:limit]`. */
  function Nearest(cafes: seq<Cafe>, dist: DistanceFn, p: Point, radius: real, limit: nat): (r: seq<Cafe>)
    ensures |r| <= limit
    ensures SortedBy(r, dist, p)
    ensures forall x | x in r :: dist(p, x) <= radius
    ensures multiset(r) <= multiset(cafes)
  {
    var sorted := SortByDistance(Within(cafes, dist, p, radius), dist, p);
    var k := if |sorted| <= limit then |sorted| else limit;
    PrefixIsSelection(cafes, sorted, k, dist, p, radius);
    SortedPrefix(sorted, k, dist, p);
    assert sorted[..|sorted|] == sorted;
    sorted[..k]
  }

  /** What any correct answer to "the `limit` nearest cafes within `radius`
      of `p`" looks like, whatever order it gives cafes at equal distance:
      as many qualifying cafes as the limit allows, each one at most as often
      as in the catalog, in non-decreasing distance, and no qualifying cafe
      left out that is strictly nearer than one included. */
  ghost predicate IsNearestSelection(cafes: seq<Cafe>, dist: DistanceFn, p: Point, radius: real, limit: nat, r: seq<Cafe>)
  {
    && |r| == (if CountWithin(cafes, dist, p, radius) <= limit then CountWithin(cafes, dist, p, radius) else limit)
    && (forall x | x in r :: dist(p, x) <= radius)
    && SortedBy(r, dist, p)
    && multiset(r) <= multiset(cafes)
    && (forall x, y | x in r && y in multiset(cafes) - multiset(r) && dist(p, y) <= radius ::
          dist(p, x) <= dist(p, y))
  }

  lemma PrefixSplit(s: seq<Cafe>, k: nat)
    requires k <= |s|
    ensures multiset(s) == multiset(s[..k]) + multiset(s[k..])
  {
    assert s == s[..k] + s[k..];
  }

  /** In a list sorted by distance, nothing after position `k` is strictly
      nearer than anything before it. */
  lemma SortedPrefixIsNearest(s: seq<Cafe>, k: nat, dist: DistanceFn, p: Point)
    requires SortedBy(s, dist, p) && k <= |s|
    ensures forall x, y | x in s[..k] && y in multiset(s[k..]) :: dist(p, x) <= dist(p, y)
  {
    forall x, y | x in s[..k] && y in multiset(s[k..]) ensures dist(p, x) <= dist(p, y) {
      var i :| 0 <= i < k && s[..k][i] == x;
      var j :| 0 <= j < |s[k..]| && s[k..][j] == y;
      assert s[i] == x && s[k + j] == y;
    }
  }

  /** A prefix of a distance-sorted arrangement of the qualifying cafes is a
      correct selection: within range, drawn from the catalog, and with no
      qualifying cafe left out that is strictly nearer than one kept. */
  lemma PrefixIsSelection(cafes: seq<Cafe>, sorted: seq<Cafe>, k: nat, dist: DistanceFn, p: Point, radius: real)
    requires forall x :: multiset(sorted)[x] == if dist(p, x) <= radius then multiset(cafes)[x] else 0
    requires SortedBy(sorted, dist, p) && k <= |sorted|
    ensures forall x | x in sorted[..k] :: dist(p, x) <= radius
    ensures multiset(sorted[..k]) <= multiset(cafes)
    ensures forall x, y | x in sorted[..k] && y in multiset(cafes) - multiset(sorted[..k]) && dist(p, y) <= radius ::
              dist(p, x) <= dist(p, y)
  {
    var r := sorted[..k];
    PrefixSplit(sorted, k);
    SortedPrefixIsNearest(sorted, k, dist, p);
    forall x | x in r ensures dist(p, x) <= radius {
      assert multiset(sorted)[x] > 0;
    }
    forall x ensures multiset(r)[x] <= multiset(cafes)[x] {
      assert multiset(r)[x] <= multiset(sorted)[x];
    }
    forall x, y | x in r && y in multiset(cafes) - multiset(r) && dist(p, y) <= radius
      ensures dist(p, x) <= dist(p, y)
    {
      assert multiset(sorted)[y] == multiset(cafes)[y];
      assert y in multiset(sorted[k..]);
    }
  }

  /** The filter-sort-truncate pipeline answers the nearest-cafes question
      for every catalog, distance, point, radius and limit. */
  lemma NearestIsNearestSelection(cafes: seq<Cafe>, dist: DistanceFn, p: Point, radius: real, limit: nat)
    ensures IsNearestSelection(cafes, dist, p, radius, limit, Nearest(cafes, dist, p, radius, limit))
  {
    var q := Within(cafes, dist, p, radius);
    var sorted := SortByDistance(q, dist, p);
    assert |sorted| == |q| == CountWithin(cafes, dist, p, radius) by {
      assert |multiset(sorted)| == |multiset(q)|;
    }
    var k := if |sorted| <= limit then |sorted| else limit;
    var r := sorted[..k];
    PrefixIsSelection(cafes, sorted, k, dist, p, radius);
    SortedPrefix(sorted, k, dist, p);
    assert IsNearestSelection(cafes, dist, p, radius, limit, r);
    assert Nearest(cafes, dist, p, radius, limit) == r;
  }

  lemma SortedPrefix(s: seq<Cafe>, k: nat, dist: DistanceFn, p: Point)
    requires SortedBy(s, dist, p) && k <= |s|
    ensures SortedBy(s[..k], dist, p)
  {
  }

  /** `NearbyCafeListView.post`: both coordinates must be truthy (so a JSON 0
      is rejected) and convertible by `float()`; then the five nearest cafes
      within 1 km. */
  function NearbyCafes(cafes: seq<Cafe>, latitude: Field, longitude: Field,
                       dist: DistanceFn, parseFloat: string -> Option<real>): (r: Result<seq<Cafe>, SearchError>)
    ensures !Truthy(latitude) || !Truthy(longitude) ==> r == Err(MissingCoordinates)
    ensures r.Ok? <==>
              && Truthy(latitude) && Truthy(longitude)
              && ToFloat(latitude, parseFloat).Some? && ToFloat(longitude, parseFloat).Some?
    ensures Truthy(latitude) && Truthy(longitude) &&
            (ToFloat(latitude, parseFloat).None? || ToFloat(longitude, parseFloat).None?) ==>
              r == Err(NonNumericCoordinates)
    ensures r.Ok? ==>
              && ToFloat(latitude, parseFloat).Some? && ToFloat(longitude, parseFloat).Some?
              && var p := Point(ToFloat(latitude, parseFloat).value, ToFloat(longitude, parseFloat).value);
                 IsNearestSelection(cafes, dist, p, NearbyRadius, ResultLimit, r.value)
  {
    if !Truthy(latitude) || !Truthy(longitude) then Err(MissingCoordinates)
    else
      var lat := ToFloat(latitude, parseFloat);
      var lon := ToFloat(longitude, parseFloat);
      if lat.None? || lon.None? then Err(NonNumericCoordinates)
      else
        var p := Point(lat.value, lon.value);
        NearestIsNearestSelection(cafes, dist, p, NearbyRadius, ResultLimit);
        Ok(Nearest(cafes, dist, p, NearbyRadius, ResultLimit))
  }

  /** The planar midpoint: the arithmetic mean of the latitudes and of the
      longitudes. */
  function Midpoint(a: Point, b: Point): (m: Point)
    ensures m.latitude - a.latitude == b.latitude - m.latitude
    ensures m.longitude - a.longitude == b.longitude - m.longitude
  {
    Point((a.latitude + b.latitude) / 2.0, (a.longitude + b.longitude) / 2.0)
  }

  /** The midpoint does not depend on which user is first, is the point
      itself for two equal points, and lies in the box the two points span. */
  lemma MidpointProperties(a: Point, b: Point)
    ensures Midpoint(a, b) == Midpoint(b, a)
    ensures Midpoint(a, a) == a
    ensures a.latitude <= b.latitude ==> a.latitude <= Midpoint(a, b).latitude <= b.latitude
    ensures a.longitude <= b.longitude ==> a.longitude <= Midpoint(a, b).longitude <= b.longitude
  {
  }

  lemma MidpointExample()
    ensures Midpoint(Point(37.50, 127.00), Point(37.60, 127.10)) == Point(37.55, 127.05)
  {
  }

  /** `MidpointCafeListView.get`: all four query parameters must be non-empty
      and convertible by `float()`; then the five nearest cafes within 5 km of
      the midpoint of the two users. */
  function MidpointCafes(cafes: seq<Cafe>, lat1: Option<string>, lon1: Option<string>,
                         lat2: Option<string>, lon2: Option<string>,
                         dist: DistanceFn, parseFloat: string -> Option<real>): (r: Result<seq<Cafe>, SearchError>)
    ensures !(Given(lat1) && Given(lon1) && Given(lat2) && Given(lon2)) ==> r == Err(MissingCoordinates)
    ensures r.Ok? <==>
              && Given(lat1) && Given(lon1) && Given(lat2) && Given(lon2)
              && parseFloat(lat1.value).Some? && parseFloat(lon1.value).Some?
              && parseFloat(lat2.value).Some? && parseFloat(lon2.value).Some?
    ensures r.Ok? ==>
              var m := Midpoint(Point(parseFloat(lat1.value).value, parseFloat(lon1.value).value),
                                Point(parseFloat(lat2.value).value, parseFloat(lon2.value).value));
              IsNearestSelection(cafes, dist, m, MidpointRadius, ResultLimit, r.value)
  {
    if !(Given(lat1) && Given(lon1) && Given(lat2) && Given(lon2)) then Err(MissingCoordinates)
    else
      var a := parseFloat(lat1.value);
      var b := parseFloat(lon1.value);
      var c := parseFloat(lat2.value);
      var d := parseFloat(lon2.value);
      if a.None? || b.None? || c.None? || d.None? then Err(NonNumericCoordinates)
      else
        var m := Midpoint(Point(a.value, b.value), Point(c.value, d.value));
        NearestIsNearestSelection(cafes, dist, m, MidpointRadius, ResultLimit);
        Ok(Nearest(cafes, dist, m, MidpointRadius, ResultLimit))
  }

  /** The catalog entries named `n`, in catalog order. */
  function Named(cafes: seq<Cafe>, n: string): (r: seq<Cafe>)
    ensures forall x :: x in r <==> x in cafes && x.name == n
    ensures forall i | 0 <= i < |r| :: r[i].name == n
  {
    if |cafes| == 0 then []
    else if cafes[0].name == n then [cafes[0]] + Named(cafes[1..], n)
    else Named(cafes[1..], n)
  }

  /** `NearbyCafeDetailView.get_object`: `Cafe.objects.get(name=...)`. No name
      or no match is a 404; two cafes of the same name make `get` raise
      `MultipleObjectsReturned`, which the view does not catch. */
  function CafeByName(cafes: seq<Cafe>, name: Option<string>): (r: Result<Cafe, LookupError>)
    ensures !Given(name) ==> r == Err(NoNameGiven)
    ensures Given(name) && (forall x | x in cafes :: x.name != name.value) ==> r == Err(NoSuchCafe)
    ensures r.Ok? ==>
              && Given(name) && r.value in cafes && r.value.name == name.value
              && forall x | x in cafes && x.name == name.value :: x == r.value
    ensures r == Err(SeveralCafes) ==>
              exists i, j | 0 <= i < j < |cafes| :: cafes[i].name == name.value && cafes[j].name == name.value
  {
    if !Given(name) then Err(NoNameGiven)
    else
      var matches := Named(cafes, name.value);
      if |matches| == 0 then
        assert forall x | x in cafes && x.name == name.value :: x in matches;
        Err(NoSuchCafe)
      else if |matches| == 1 then
        assert matches[0] in matches;
        Ok(matches[0])
      else
        NamedTwiceMeansTwoEntries(cafes, name.value);
        Err(SeveralCafes)
  }

  /** A name held by exactly one catalog entry finds that entry. */
  lemma CafeByNameUnique(cafes: seq<Cafe>, name: Option<string>, i: nat)
    requires Given(name) && i < |cafes| && cafes[i].name == name.value
    requires forall j | 0 <= j < |cafes| && cafes[j].name == name.value :: j == i
    ensures CafeByName(cafes, name) == Ok(cafes[i])
  {
    var matches := Named(cafes, name.value);
    assert cafes[i] in matches;
    if |matches| >= 2 {
      var a, b := NamedHasTwo(cafes, name.value);
      assert false;
    }
    assert matches[0] in cafes;
    var j :| 0 <= j < |cafes| && cafes[j] == matches[0];
    assert j == i;
  }

  /** A name held by two catalog entries is the unhandled
      `MultipleObjectsReturned`. */
  lemma CafeByNameSeveral(cafes: seq<Cafe>, name: Option<string>, i: nat, j: nat)
    requires Given(name) && i < j < |cafes| && cafes[i].name == name.value && cafes[j].name == name.value
    ensures CafeByName(cafes, name) == Err(SeveralCafes)
  {
    NamedHasBoth(cafes, name.value, i, j);
  }

  lemma {:induction false} NamedHasBoth(cafes: seq<Cafe>, n: string, i: nat, j: nat)
    requires i < j < |cafes| && cafes[i].name == n && cafes[j].name == n
    ensures |Named(cafes, n)| >= 2
  {
    if i == 0 {
      assert cafes[1..][j - 1] == cafes[j];
      assert cafes[j] in Named(cafes[1..], n);
    } else {
      NamedHasBoth(cafes[1..], n, i - 1, j - 1);
      NamedLengthGrows(cafes, n);
    }
  }

  lemma NamedLengthGrows(cafes: seq<Cafe>, n: string)
    requires |cafes| > 0
    ensures |Named(cafes[1..], n)| <= |Named(cafes, n)|
  {
  }

  /** The position of some catalog entry named `n`, when there is a match. */
  lemma {:induction false} NamedHasOne(cafes: seq<Cafe>, n: string) returns (j: nat)
    requires |Named(cafes, n)| >= 1
    ensures j < |cafes| && cafes[j].name == n
  {
    if cafes[0].name == n {
      j := 0;
    } else {
      var rest := cafes[1..];
      assert |Named(rest, n)| == |Named(cafes, n)|;
      var k := NamedHasOne(rest, n);
      assert cafes[k + 1] == rest[k];
      j := k + 1;
    }
  }

  /** Two positions of catalog entries named `n`, when there are two
      matches. */
  lemma {:induction false} NamedHasTwo(cafes: seq<Cafe>, n: string) returns (i: nat, j: nat)
    requires |Named(cafes, n)| >= 2
    ensures i < j < |cafes| && cafes[i].name == n && cafes[j].name == n
  {
    var rest := cafes[1..];
    if cafes[0].name == n {
      assert |Named(rest, n)| + 1 == |Named(cafes, n)|;
      var k := NamedHasOne(rest, n);
      assert cafes[k + 1] == rest[k];
      i, j := 0, k + 1;
    } else {
      assert |Named(rest, n)| == |Named(cafes, n)|;
      var a, b := NamedHasTwo(rest, n);
      assert cafes[a + 1] == rest[a] && cafes[b + 1] == rest[b];
      i, j := a + 1, b + 1;
    }
  }

  lemma NamedTwiceMeansTwoEntries(cafes: seq<Cafe>, n: string)
    requires |Named(cafes, n)| >= 2
    ensures exists a, b | 0 <= a < b < |cafes| :: cafes[a].name == n && cafes[b].name == n
  {
    var i, j := NamedHasTwo(cafes, n);
    TwoNamed(cafes, n, i, j);
  }

  lemma TwoNamed(cafes: seq<Cafe>, n: string, i: nat, j: nat)
    requires i < j < |cafes| && cafes[i].name == n && cafes[j].name == n
    ensures exists a, b | 0 <= a < b < |cafes| :: cafes[a].name == n && cafes[b].name == n
  {
  }
}

=== FILE: ratings.dfy ===
/** The star-rating store of the cafe catalog and the average stored on each
    cafe: `RatingListView`, `RatingDetailView` (main/views/rating.py) and the
    `add_rating` endpoint (main/views/place.py).

    The source names the rating-to-cafe relation three ways (`Cafe=`, `place=`,
    `cafe=`); the rating model declares it as `cafe`, and this module keys every
    rating by that one relation. Averages are exact rationals, not floats. */
module Ratings {
  import opened Common

  type CafeId = nat

  /** One row of the rating table. */
  datatype Rating = Rating(user: UserId, cafe: CafeId, value: int)

  /** The catalog (each cafe with the average rating stored on it) and the
      rating table, in insertion order. */
  datatype Store = Store(averages: map<CafeId, real>, ratings: seq<Rating>)

  /** Error replies: 404, 400, and an exception the view does not catch (500). */
  datatype Failure = NotFound | BadRequest | ServerError

  /** A view's reply together with the store it leaves behind. */
  datatype Response<T> = Response(reply: Result<T, Failure>, store: Store)

  /** The value stored for `(u, c)`, if any (the first row, should there be two). */
  function Lookup(rs: seq<Rating>, u: UserId, c: CafeId): (r: Option<int>)
    ensures r.Some? ==> Count(rs, c) >= 1
  {
    if |rs| == 0 then None
    else if rs[0].user == u && rs[0].cafe == c then Some(rs[0].value)
    else Lookup(rs[1..], u, c)
  }

  /** The `unique_together = ('user', 'cafe')` constraint of the rating model. */
  predicate Unique(rs: seq<Rating>)
  {
    |rs| == 0 || (Lookup(rs[1..], rs[0].user, rs[0].cafe).None? && Unique(rs[1..]))
  }

  /** Number of ratings of cafe `c`. */
  function Count(rs: seq<Rating>, c: CafeId): nat
  {
    if |rs| == 0 then 0
    else (if rs[0].cafe == c then 1 else 0) + Count(rs[1..], c)
  }

  /** Sum of the values of the ratings of cafe `c`. */
  function Sum(rs: seq<Rating>, c: CafeId): int
  {
    if |rs| == 0 then 0
    else (if rs[0].cafe == c then rs[0].value else 0) + Sum(rs[1..], c)
  }

  /** The average the views store on a cafe: sum/count, or 0 with no ratings. */
  function Average(rs: seq<Rating>, c: CafeId): real
  {
    if Count(rs, c) == 0 then 0.0 else Sum(rs, c) as real / Count(rs, c) as real
  }

  /** A star value the submit endpoints accept. */
  predicate InRange(v: int) {
    1 <= v <= 5
  }

  predicate AllInRange(rs: seq<Rating>) {
    forall x | x in rs :: InRange(x.value)
  }

  /** The store is consistent: one rating per (user, cafe), every value a
      star value, every rating about a catalog cafe, and every cafe's stored
      average equal to the average recomputed from its ratings. */
  predicate Valid(st: Store) {
    && Unique(st.ratings)
    && AllInRange(st.ratings)
    && (forall x | x in st.ratings :: x.cafe in st.averages)
    && (forall c | c in st.averages :: st.averages[c] == Average(st.ratings, c))
  }

  /** `Rating.objects.update_or_create(user=u, cafe=c, defaults={'rating': v})`. */
  function Upsert(rs: seq<Rating>, u: UserId, c: CafeId, v: int): (r: seq<Rating>)
    ensures Lookup(r, u, c) == Some(v)
    ensures forall u', c' | u' != u || c' != c :: Lookup(r, u', c') == Lookup(rs, u', c')
    ensures Unique(rs) ==> Unique(r)
    ensures forall x | x in r :: x in rs || x == Rating(u, c, v)
    ensures Count(r, c) == Count(rs, c) + (if Lookup(rs, u, c).None? then 1 else 0)
    ensures Sum(r, c) == Sum(rs, c) - Lookup(rs, u, c).GetOr(0) + v
    ensures forall c' | c' != c :: Count(r, c') == Count(rs, c') && Sum(r, c') == Sum(rs, c')
  {
    if |rs| == 0 then [Rating(u, c, v)]
    else if rs[0].user == u && rs[0].cafe == c then
      var r := [Rating(u, c, v)] + rs[1..];
      assert r[1..] == rs[1..];
      r
    else
      var rest := Upsert(rs[1..], u, c, v);
      var r := [rs[0]] + rest;
      assert r[0] == rs[0] && r[1..] == rest;
      assert forall c' | c' != c :: Count(r, c') == Count(rs, c') && Sum(r, c') == Sum(rs, c') by {
        forall c' | c' != c
          ensures Count(r, c') == Count(rs, c') && Sum(r, c') == Sum(rs, c')
        {
          assert Count(rest, c') == Count(rs[1..], c') && Sum(rest, c') == Sum(rs[1..], c');
        }
      }
      r
  }

  /** Deleting the row of `(u, c)`. */
  function Remove(rs: seq<Rating>, u: UserId, c: CafeId): (r: seq<Rating>)
    ensures Lookup(r, u, c) == None
    ensures forall u', c' | u' != u || c' != c :: Lookup(r, u', c') == Lookup(rs, u', c')
    ensures Unique(rs) ==> Unique(r)
    ensures forall x | x in r :: x in rs
    ensures Unique(rs) ==> Count(r, c) == Count(rs, c) - (if Lookup(rs, u, c).Some? then 1 else 0)
    ensures Unique(rs) ==> Sum(r, c) == Sum(rs, c) - Lookup(rs, u, c).GetOr(0)
    ensures forall c' | c' != c :: Count(r, c') == Count(rs, c') && Sum(r, c') == Sum(rs, c')
  {
    if |rs| == 0 then []
    else if rs[0].user == u && rs[0].cafe == c then Remove(rs[1..], u, c)
    else
      var rest := Remove(rs[1..], u, c);
      var r := [rs[0]] + rest;
      assert r[0] == rs[0] && r[1..] == rest;
      assert forall c' | c' != c :: Count(r, c') == Count(rs, c') && Sum(r, c') == Sum(rs, c') by {
        forall c' | c' != c
          ensures Count(r, c') == Count(rs, c') && Sum(r, c') == Sum(rs, c')
        {
          assert Count(rest, c') == Count(rs[1..], c') && Sum(rest, c') == Sum(rs[1..], c');
        }
      }
      r
  }

  /** `update_average_rating`: store the recomputed average on cafe `c`. */
  function Recompute(averages: map<CafeId, real>, rs: seq<Rating>, c: CafeId): (r: Store)
    ensures r.ratings == rs
    ensures r.averages.Keys == averages.Keys + {c}
    ensures Count(rs, c) == 0 ==> r.averages[c] == 0.0
    ensures Count(rs, c) > 0 ==> r.averages[c] * Count(rs, c) as real == Sum(rs, c) as real
    ensures forall c' | c' in averages && c' != c :: r.averages[c'] == averages[c']
  {
    Store(averages[c := Average(rs, c)], rs)
  }

  lemma {:induction false} SumBetween(rs: seq<Rating>, c: CafeId)
    requires AllInRange(rs)
    ensures Count(rs, c) <= Sum(rs, c) <= 5 * Count(rs, c)
  {
    if |rs| > 0 {
      assert rs[0] in rs;
      assert AllInRange(rs[1..]) by {
        forall x | x in rs[1..] ensures InRange(x.value) {
          assert x in rs;
        }
      }
      SumBetween(rs[1..], c);
    }
  }

  /** With every value in 1..5, the average of a cafe that has ratings lies
      in [1, 5]. */
  lemma AverageBounds(rs: seq<Rating>, c: CafeId)
    requires AllInRange(rs) && Count(rs, c) > 0
    ensures 1.0 <= Average(rs, c) <= 5.0
  {
    SumBetween(rs, c);
    QuotientBounds(Sum(rs, c) as real, Count(rs, c) as real);
  }

  lemma QuotientBounds(s: real, n: real)
    requires 0.0 < n <= s <= 5.0 * n
    ensures 1.0 <= s / n <= 5.0
  {
  }

  /** A write that touches only the ratings of cafe `c` and then recomputes
      the average of `c` keeps the store consistent. */
  lemma RecomputeKeepsValid(st: Store, rs: seq<Rating>, c: CafeId)
    requires Valid(st) && c in st.averages
    requires Unique(rs) && AllInRange(rs)
    requires forall x | x in rs :: x.cafe in st.averages
    requires forall c' | c' != c :: Count(rs, c') == Count(st.ratings, c') && Sum(rs, c') == Sum(st.ratings, c')
    ensures Valid(Recompute(st.averages, rs, c))
  {
    var st' := Recompute(st.averages, rs, c);
    forall c' | c' in st'.averages
      ensures st'.averages[c'] == Average(rs, c')
    {
      if c' != c {
        assert Average(rs, c') == Average(st.ratings, c');
      }
    }
  }

  /** `RatingListView.post`: look the cafe up (404), reject a missing, zero or
      out-of-range value (400), upsert the user's rating, store and return
      the recomputed average. `int()` of non-numeric text raises out of the
      view (500). */
  function SubmitRating(st: Store, user: UserId, cafe: CafeId, raw: Field): (r: Response<(Rating, real)>)
    ensures r.reply.Err? ==> r.store == st
    ensures cafe !in st.averages ==> r.reply == Err(NotFound)
    ensures cafe in st.averages && !Truthy(raw) ==> r.reply == Err(BadRequest)
    ensures cafe in st.averages && Truthy(raw) && ToInt(raw).None? ==> r.reply == Err(ServerError)
    ensures cafe in st.averages && Truthy(raw) && ToInt(raw).Some? && !InRange(ToInt(raw).value) ==>
              r.reply == Err(BadRequest)
    ensures r.reply.Ok? <==>
              cafe in st.averages && Truthy(raw) && ToInt(raw).Some? && InRange(ToInt(raw).value)
    ensures r.reply.Ok? ==>
              && r.reply.value.0 == Rating(user, cafe, ToInt(raw).value)
              && Lookup(r.store.ratings, user, cafe) == Some(ToInt(raw).value)
              && (forall u', c' | u' != user || c' != cafe ::
                    Lookup(r.store.ratings, u', c') == Lookup(st.ratings, u', c'))
              && r.store.averages.Keys == st.averages.Keys
              && (forall c | c in st.averages && c != cafe :: r.store.averages[c] == st.averages[c])
              && Count(r.store.ratings, cafe) >= 1
              && r.store.averages[cafe] == r.reply.value.1
              && r.reply.value.1 == Sum(r.store.ratings, cafe) as real / Count(r.store.ratings, cafe) as real
  {
    if cafe !in st.averages then Response(Err(NotFound), st)
    else if !Truthy(raw) then Response(Err(BadRequest), st)
    else match ToInt(raw)
      case None => Response(Err(ServerError), st)
      case Some(v) =>
        if !InRange(v) then Response(Err(BadRequest), st)
        else
          var st' := Recompute(st.averages, Upsert(st.ratings, user, cafe, v), cafe);
          Response(Ok((Rating(user, cafe, v), st'.averages[cafe])), st')
  }

  /** `add_rating`: the same upsert and recompute, but without the truthiness
      check, so a missing value or empty text reaches `int()` and raises (500)
      and a zero is refused only by the range check (400). */
  function AddRating(st: Store, user: UserId, cafe: CafeId, raw: Field): (r: Response<real>)
    ensures r.reply.Err? ==> r.store == st
    ensures cafe !in st.averages ==> r.reply == Err(NotFound)
    ensures cafe in st.averages && ToInt(raw).None? ==> r.reply == Err(ServerError)
    ensures cafe in st.averages && ToInt(raw).Some? && !InRange(ToInt(raw).value) ==> r.reply == Err(BadRequest)
    ensures r.reply.Ok? <==> cafe in st.averages && ToInt(raw).Some? && InRange(ToInt(raw).value)
    ensures r.reply.Ok? ==>
              && Lookup(r.store.ratings, user, cafe) == Some(ToInt(raw).value)
              && (forall u', c' | u' != user || c' != cafe ::
                    Lookup(r.store.ratings, u', c') == Lookup(st.ratings, u', c'))
              && r.store.averages.Keys == st.averages.Keys
              && (forall c | c in st.averages && c != cafe :: r.store.averages[c] == st.averages[c])
              && Count(r.store.ratings, cafe) >= 1
              && r.store.averages[cafe] == r.reply.value
              && r.reply.value == Sum(r.store.ratings, cafe) as real / Count(r.store.ratings, cafe) as real
  {
    if cafe !in st.averages then Response(Err(NotFound), st)
    else match ToInt(raw)
      case None => Response(Err(ServerError), st)
      case Some(v) =>
        if !InRange(v) then Response(Err(BadRequest), st)
        else
          var st' := Recompute(st.averages, Upsert(st.ratings, user, cafe, v), cafe);
          Response(Ok(st'.averages[cafe]), st')
  }

  /** `RatingListView.get`: the average recomputed from the ratings (0 with
      none); the store is only read. */
  function GetAverage(st: Store, cafe: CafeId): (r: Result<real, Failure>)
    ensures r.Ok? <==> cafe in st.averages
    ensures r.Ok? && Count(st.ratings, cafe) == 0 ==> r.value == 0.0
    ensures r.Ok? && Count(st.ratings, cafe) > 0 ==>
              r.value * Count(st.ratings, cafe) as real == Sum(st.ratings, cafe) as real
    ensures r.Ok? && AllInRange(st.ratings) && Count(st.ratings, cafe) > 0 ==> 1.0 <= r.value <= 5.0
  {
    if cafe !in st.averages then Err(NotFound)
    else
      var avg := Average(st.ratings, cafe);
      assert AllInRange(st.ratings) && Count(st.ratings, cafe) > 0 ==> 1.0 <= avg <= 5.0 by {
        if AllInRange(st.ratings) && Count(st.ratings, cafe) > 0 {
          AverageBounds(st.ratings, cafe);
        }
      }
      Ok(avg)
  }

  /** `RatingDetailView` update as written: DRF validates the value only
      against the range of a `PositiveSmallIntegerField` (0..32767) before
      `perform_update` saves it and recomputes the average. */
  function UpdateRatingAsWritten(st: Store, user: UserId, cafe: CafeId, v: int): (r: Response<Rating>)
    ensures r.reply.Err? ==> r.store == st
    ensures r.reply.Ok? <==> Lookup(st.ratings, user, cafe).Some? && 0 <= v <= 32767
    ensures r.reply.Ok? ==> Lookup(r.store.ratings, user, cafe) == Some(v)
  {
    if Lookup(st.ratings, user, cafe).None? then Response(Err(NotFound), st)
    else if !(0 <= v <= 32767) then Response(Err(BadRequest), st)
    else Response(Ok(Rating(user, cafe, v)), Recompute(st.averages, Upsert(st.ratings, user, cafe, v), cafe))
  }

  /** A consistent store, updated through the detail endpoint as written to a
      value of 6, ends with a stored average of 6 and is no longer consistent. */
  lemma UpdateAsWrittenBreaksBound()
    ensures var st := Store(map[1 := 4.0], [Rating(7, 1, 4)]);
            var r := UpdateRatingAsWritten(st, 7, 1, 6);
            Valid(st) && r.reply.Ok? && r.store.averages[1] == 6.0 && !Valid(r.store)
  {
    var st := Store(map[1 := 4.0], [Rating(7, 1, 4)]);
    assert Average(st.ratings, 1) == 4.0;
    var r := UpdateRatingAsWritten(st, 7, 1, 6);
    assert r.store.ratings == [Rating(7, 1, 6)];
    assert Rating(7, 1, 6) in r.store.ratings;
  }

  /** `RatingDetailView` update with the star range enforced, as the rating
      model documents: the same lookup (404), a value outside 1..5 refused
      (400), then save and recompute. */
  function UpdateRating(st: Store, user: UserId, cafe: CafeId, v: int): (r: Response<Rating>)
    ensures r.reply.Err? ==> r.store == st
    ensures r.reply.Ok? <==> Lookup(st.ratings, user, cafe).Some? && InRange(v)
    ensures r.reply.Ok? ==>
              && Lookup(r.store.ratings, user, cafe) == Some(v)
              && (forall u', c' | u' != user || c' != cafe ::
                    Lookup(r.store.ratings, u', c') == Lookup(st.ratings, u', c'))
              && r.store.averages.Keys == st.averages.Keys + {cafe}
              && r.store.averages[cafe] == Average(r.store.ratings, cafe)
              && (forall c | c in st.averages && c != cafe :: r.store.averages[c] == st.averages[c])
  {
    if Lookup(st.ratings, user, cafe).None? then Response(Err(NotFound), st)
    else if !InRange(v) then Response(Err(BadRequest), st)
    else Response(Ok(Rating(user, cafe, v)), Recompute(st.averages, Upsert(st.ratings, user, cafe, v), cafe))
  }

  /** `RatingDetailView.perform_destroy`: delete the row, then recompute the
      owning cafe's average, which is 0 once no rating remains. */
  function DeleteRating(st: Store, user: UserId, cafe: CafeId): (r: Response<()>)
    ensures r.reply.Err? ==> r.store == st
    ensures r.reply.Ok? <==> Lookup(st.ratings, user, cafe).Some?
    ensures r.reply.Ok? ==>
              && Lookup(r.store.ratings, user, cafe) == None
              && (forall u', c' | u' != user || c' != cafe ::
                    Lookup(r.store.ratings, u', c') == Lookup(st.ratings, u', c'))
              && r.store.averages.Keys == st.averages.Keys + {cafe}
              && r.store.averages[cafe] == Average(r.store.ratings, cafe)
              && (Count(r.store.ratings, cafe) == 0 ==> r.store.averages[cafe] == 0.0)
              && (forall c | c in st.averages && c != cafe :: r.store.averages[c] == st.averages[c])
    ensures r.reply.Ok? && Unique(st.ratings) ==> Count(r.store.ratings, cafe) == Count(st.ratings, cafe) - 1
  {
    if Lookup(st.ratings, user, cafe).None? then Response(Err(NotFound), st)
    else Response(Ok(()), Recompute(st.averages, Remove(st.ratings, user, cafe), cafe))
  }

  lemma LookupIn(rs: seq<Rating>, u: UserId, c: CafeId)
    requires Lookup(rs, u, c).Some?
    ensures Rating(u, c, Lookup(rs, u, c).value) in rs
  {
  }

  /** Every successful submit keeps the store consistent. */
  lemma SubmitKeepsValid(st: Store, user: UserId, cafe: CafeId, raw: Field)
    requires Valid(st)
    ensures Valid(SubmitRating(st, user, cafe, raw).store)
  {
    var r := SubmitRating(st, user, cafe, raw);
    if r.reply.Ok? {
      RecomputeKeepsValid(st, Upsert(st.ratings, user, cafe, ToInt(raw).value), cafe);
    }
  }

  /** Every successful `add_rating` keeps the store consistent. */
  lemma AddRatingKeepsValid(st: Store, user: UserId, cafe: CafeId, raw: Field)
    requires Valid(st)
    ensures Valid(AddRating(st, user, cafe, raw).store)
  {
    var r := AddRating(st, user, cafe, raw);
    if r.reply.Ok? {
      RecomputeKeepsValid(st, Upsert(st.ratings, user, cafe, ToInt(raw).value), cafe);
    }
  }

  /** The range-checked update keeps the store consistent. */
  lemma UpdateKeepsValid(st: Store, user: UserId, cafe: CafeId, v: int)
    requires Valid(st)
    ensures Valid(UpdateRating(st, user, cafe, v).store)
  {
    var r := UpdateRating(st, user, cafe, v);
    if r.reply.Ok? {
      LookupIn(st.ratings, user, cafe);
      RecomputeKeepsValid(st, Upsert(st.ratings, user, cafe, v), cafe);
    }
  }

  /** Deleting a rating keeps the store consistent. */
  lemma DeleteKeepsValid(st: Store, user: UserId, cafe: CafeId)
    requires Valid(st)
    ensures Valid(DeleteRating(st, user, cafe).store)
  {
    var r := DeleteRating(st, user, cafe);
    if r.reply.Ok? {
      LookupIn(st.ratings, user, cafe);
      RecomputeKeepsValid(st, Remove(st.ratings, user, cafe), cafe);
    }
  }

  /** In a consistent store the average a GET returns is the one stored. */
  lemma ReadAgreesWithStored(st: Store, cafe: CafeId)
    requires Valid(st) && cafe in st.averages
    ensures GetAverage(st, cafe) == Ok(st.averages[cafe])
  {
  }

  /** Right after a successful submit, a GET returns the average the submit
      reported. */
  lemma ReadAfterSubmit(st: Store, user: UserId, cafe: CafeId, raw: Field)
    requires SubmitRating(st, user, cafe, raw).reply.Ok?
    ensures var r := SubmitRating(st, user, cafe, raw);
            GetAverage(r.store, cafe) == Ok(r.reply.value.1)
  {
  }

  /** The two submit endpoints write the same store whenever both succeed;
      they differ on a missing value (400 against 500). */
  lemma SubmitEndpointsAgree(st: Store, user: UserId, cafe: CafeId, raw: Field)
    ensures SubmitRating(st, user, cafe, raw).reply.Ok? && AddRating(st, user, cafe, raw).reply.Ok? ==>
              SubmitRating(st, user, cafe, raw).store == AddRating(st, user, cafe, raw).store
    ensures cafe in st.averages ==>
              SubmitRating(st, user, cafe, Absent).reply == Err(BadRequest) &&
              AddRating(st, user, cafe, Absent).reply == Err(ServerError)
  {
  }

  /** Rating 4 and then 2 from the same user leaves one record, of value 2,
      and an average of 2 (not 3). */
  lemma ResubmissionReplaces()
    ensures var st0 := Store(map[1 := 0.0], []);
            var a := SubmitRating(st0, 10, 1, Number(4.0));
            var b := SubmitRating(a.store, 10, 1, Number(2.0));
            && b.reply.Ok?
            && b.store.ratings == [Rating(10, 1, 2)]
            && b.store.averages[1] == 2.0
  {
    var st0 := Store(map[1 := 0.0], []);
    var a := SubmitRating(st0, 10, 1, Number(4.0));
    assert a.store.ratings == [Rating(10, 1, 4)];
    var b := SubmitRating(a.store, 10, 1, Number(2.0));
    assert b.store.ratings == [Rating(10, 1, 2)];
    assert Count(b.store.ratings, 1) == 1 && Sum(b.store.ratings, 1) == 2;
  }

  /** Ratings 5, 3 and 4 from three users average 4; deleting the 3 leaves 4.5. */
  lemma ThreeRatersThenDelete()
    ensures var st0 := Store(map[1 := 0.0], []);
            var a := SubmitRating(st0, 1, 1, Number(5.0));
            var b := SubmitRating(a.store, 2, 1, Number(3.0));
            var c := SubmitRating(b.store, 3, 1, Number(4.0));
            var d := DeleteRating(c.store, 2, 1);
            && c.reply.Ok? && c.reply.value.1 == 4.0
            && d.reply.Ok? && d.store.averages[1] == 4.5
  {
    var st0 := Store(map[1 := 0.0], []);
    var a := SubmitRating(st0, 1, 1, Number(5.0));
    assert a.store.ratings == [Rating(1, 1, 5)];
    var b := SubmitRating(a.store, 2, 1, Number(3.0));
    assert b.store.ratings == [Rating(1, 1, 5), Rating(2, 1, 3)];
    var c := SubmitRating(b.store, 3, 1, Number(4.0));
    var rs := [Rating(1, 1, 5), Rating(2, 1, 3), Rating(3, 1, 4)];
    assert c.store.ratings == rs;
    assert Count(rs, 1) == 3 && Sum(rs, 1) == 12;
    var d := DeleteRating(c.store, 2, 1);
    assert d.store.ratings == [Rating(1, 1, 5), Rating(3, 1, 4)];
    assert Count(d.store.ratings, 1) == 2 && Sum(d.store.ratings, 1) == 9;
  }
}

=== FILE: reviews.dfy ===
/** Cafe reviews (`ReviewListCreateView` and `ReviewDetailView` in
    main/views/place.py): listing the reviews of a place, creating one, and
    the author-only update and delete.

    A review's `user` relation points at a profile, while the views hold the
    requester's user account. Django compares and assigns model instances by
    model and primary key, which `ModelRow` spells out. */
module Reviews {
  import opened Common

  datatype Review = Review(place: nat, author: ProfileId, content: string)

  /** The authenticated user and that user's profile. */
  datatype Requester = Requester(user: UserId, profile: ProfileId)

  /** A model instance as Django compares it: two instances are equal only
      when they are rows of the same model with the same primary key. */
  datatype ModelRow = UserRow(id: UserId) | ProfileRow(id: ProfileId)

  /** `InvalidContent` is the serializer's refusal of the body (400).
      `PlaceNotFound` is `Place.DoesNotExist` and `NotAuthor` the built-in
      `PermissionError`, both escaping the view (500), as does the `ValueError`
      of assigning a row of the wrong model to a relation (`WrongModel`). */
  datatype ReviewError = InvalidContent(problem: TextProblem) | PlaceNotFound | ReviewNotFound | NotAuthor | WrongModel

  /** `ReviewListCreateView.get_queryset`: the reviews of one place. */
  function ListReviews(reviews: Table<Review>, place: nat): (r: set<nat>)
    ensures forall k: nat :: k in r <==> Has(reviews, k) && reviews[k].value.place == place
  {
    set k: nat | 0 < k < |reviews| && reviews[k].Some? && reviews[k].value.place == place
  }

  /** `perform_create`, parameterised by the row assigned to the review's
      profile relation. The create mixin validates the body first (the only
      writable field is `content`); then the view looks the place up and saves
      the review with the stripped content. */
  function CreateReviewWith(places: set<nat>, reviews: Table<Review>, place: nat,
                            authorRow: ModelRow, content: Option<string>): (r: Result<(nat, Table<Review>), ReviewError>)
    ensures !FilledIn(content) ==> r == Err(InvalidContent(CheckText(content, None).error))
    ensures FilledIn(content) && place !in places ==> r == Err(PlaceNotFound)
    ensures FilledIn(content) && place in places && authorRow.UserRow? ==> r == Err(WrongModel)
    ensures r.Ok? ==>
              var (k, reviews') := r.value;
              && authorRow.ProfileRow? && FilledIn(content)
              && !Has(reviews, k) && Has(reviews', k)
              && reviews'[k].value == Review(place, authorRow.id, Trim(content.value))
              && |reviews'| > |reviews|
              && (forall j | 0 <= j < |reviews| :: reviews'[j] == reviews[j])
  {
    match CheckText(content, None)
    case Err(e) => Err(InvalidContent(e))
    case Ok(text) =>
      if place !in places then Err(PlaceNotFound)
      else match authorRow
        case UserRow(_) => Err(WrongModel)
        case ProfileRow(p) => Ok(Insert(reviews, Review(place, p, text)))
  }

  /** Creation as written: the view saves the requester's user account into
      the review's profile relation. */
  function CreateReviewAsWritten(places: set<nat>, reviews: Table<Review>, place: nat,
                                 requester: Requester, content: Option<string>): (r: Result<(nat, Table<Review>), ReviewError>)
    ensures r.Err?
    ensures FilledIn(content) && place in places ==> r == Err(WrongModel)
  {
    CreateReviewWith(places, reviews, place, UserRow(requester.user), content)
  }

  /** Creation with the requester's profile as the author. */
  function CreateReview(places: set<nat>, reviews: Table<Review>, place: nat,
                        requester: Requester, content: Option<string>): (r: Result<(nat, Table<Review>), ReviewError>)
    ensures r.Ok? <==> FilledIn(content) && place in places
    ensures !FilledIn(content) ==> r.Err? && r.error.InvalidContent?
    ensures FilledIn(content) && place !in places ==> r == Err(PlaceNotFound)
    ensures r.Ok? ==>
              var (k, reviews') := r.value;
              && !Has(reviews, k) && Has(reviews', k)
              && reviews'[k].value == Review(place, requester.profile, Trim(content.value))
              && |reviews'| > |reviews|
              && (forall j | 0 <= j < |reviews| :: reviews'[j] == reviews[j])
  {
    CreateReviewWith(places, reviews, place, ProfileRow(requester.profile), content)
  }

  /** A created review is listed under its place, and nothing else changes
      in any place's listing. */
  lemma CreatedReviewIsListed(places: set<nat>, reviews: Table<Review>, place: nat,
                              requester: Requester, content: Option<string>, other: nat)
    requires CreateReview(places, reviews, place, requester, content).Ok?
    ensures var (k, reviews') := CreateReview(places, reviews, place, requester, content).value;
            && ListReviews(reviews', place) == ListReviews(reviews, place) + {k}
            && (other != place ==> ListReviews(reviews', other) == ListReviews(reviews, other))
  {
    var (k, reviews') := CreateReview(places, reviews, place, requester, content).value;
    forall j: nat ensures j in ListReviews(reviews', place) <==> j in ListReviews(reviews, place) + {k} {
      if j < |reviews| {
        assert reviews'[j] == reviews[j];
      }
    }
    forall j: nat ensures j in ListReviews(reviews', other) <==> j in ListReviews(reviews, other) || (j == k && other == place) {
      if j < |reviews| {
        assert reviews'[j] == reviews[j];
      }
    }
  }

  /** The content an update leaves on a review: a partial update (PATCH) that
      omits `content` keeps the old text; otherwise the serializer demands a
      non-blank text and the stripped text replaces the old one. */
  function UpdatedContent(current: string, content: Option<string>, partial: bool): (r: Result<string, TextProblem>)
    ensures r.Ok? <==> (partial && content.None?) || FilledIn(content)
    ensures partial && content.None? ==> r == Ok(current)
    ensures FilledIn(content) ==> r == Ok(Trim(content.value))
  {
    if partial && content.None? then Ok(current) else CheckText(content, None)
  }

  /** `ReviewDetailView` update, parameterised by the row compared with the
      review's author: a missing review is a 404, then the body is validated,
      then a row other than the author raises, and otherwise the content is
      replaced. */
  function UpdateReviewWith(reviews: Table<Review>, id: nat, requesterRow: ModelRow,
                            content: Option<string>, partial: bool): (r: Result<Table<Review>, ReviewError>)
    ensures !Has(reviews, id) ==> r == Err(ReviewNotFound)
    ensures Has(reviews, id) && UpdatedContent(reviews[id].value.content, content, partial).Err? ==>
              r.Err? && r.error.InvalidContent?
    ensures r.Ok? <==>
              && Has(reviews, id) && UpdatedContent(reviews[id].value.content, content, partial).Ok?
              && requesterRow == ProfileRow(reviews[id].value.author)
    ensures r.Ok? ==>
              && |r.value| == |reviews| && Has(r.value, id)
              && r.value[id].value == reviews[id].value.(content := UpdatedContent(reviews[id].value.content, content, partial).value)
              && (forall j | 0 <= j < |reviews| && j != id :: r.value[j] == reviews[j])
  {
    if !Has(reviews, id) then Err(ReviewNotFound)
    else match UpdatedContent(reviews[id].value.content, content, partial)
      case Err(e) => Err(InvalidContent(e))
      case Ok(text) =>
        if requesterRow != ProfileRow(reviews[id].value.author) then Err(NotAuthor)
        else Ok(reviews[id := Some(reviews[id].value.(content := text))])
  }

  /** `ReviewDetailView.perform_destroy`, parameterised the same way. */
  function DeleteReviewWith(reviews: Table<Review>, id: nat, requesterRow: ModelRow): (r: Result<Table<Review>, ReviewError>)
    ensures r.Ok? <==> Has(reviews, id) && requesterRow == ProfileRow(reviews[id].value.author)
    ensures !Has(reviews, id) ==> r == Err(ReviewNotFound)
    ensures r.Ok? ==>
              && |r.value| == |reviews| && !Has(r.value, id)
              && (forall j | 0 <= j < |reviews| && j != id :: r.value[j] == reviews[j])
  {
    if !Has(reviews, id) then Err(ReviewNotFound)
    else if requesterRow != ProfileRow(reviews[id].value.author) then Err(NotAuthor)
    else Ok(reviews[id := None])
  }

  /** Update as written: the author check compares the requester's user
      account with the review's profile, and the two never compare equal. */
  function UpdateReviewAsWritten(reviews: Table<Review>, id: nat, requester: Requester,
                                 content: Option<string>, partial: bool): (r: Result<Table<Review>, ReviewError>)
    ensures r.Err?
    ensures Has(reviews, id) && UpdatedContent(reviews[id].value.content, content, partial).Ok? ==> r == Err(NotAuthor)
  {
    UpdateReviewWith(reviews, id, UserRow(requester.user), content, partial)
  }

  /** Delete as written, with the same comparison. */
  function DeleteReviewAsWritten(reviews: Table<Review>, id: nat, requester: Requester): (r: Result<Table<Review>, ReviewError>)
    ensures r.Err?
    ensures Has(reviews, id) ==> r == Err(NotAuthor)
  {
    DeleteReviewWith(reviews, id, UserRow(requester.user))
  }

  /** The author of review 1 asks to edit and to delete it: both are refused
      as written. */
  lemma AuthorRefusedAsWritten()
    ensures var reviews := [None, Some(Review(1, 4, "good"))];
            var author := Requester(4, 4);
            && UpdateReviewAsWritten(reviews, 1, author, Some("better"), false) == Err(NotAuthor)
            && DeleteReviewAsWritten(reviews, 1, author) == Err(NotAuthor)
  {
    assert !Blank("better") by { assert !IsSpace("better"[0]); }
    assert FilledIn(Some("better"));
  }

  /** Update comparing the requester's profile with the author. */
  function UpdateReview(reviews: Table<Review>, id: nat, requester: Requester,
                        content: Option<string>, partial: bool): (r: Result<Table<Review>, ReviewError>)
    ensures r.Ok? <==>
              && Has(reviews, id) && reviews[id].value.author == requester.profile
              && ((partial && content.None?) || FilledIn(content))
    ensures Has(reviews, id) && !(partial && content.None?) && !FilledIn(content) ==> r.Err? && r.error.InvalidContent?
    ensures Has(reviews, id) && ((partial && content.None?) || FilledIn(content)) && reviews[id].value.author != requester.profile ==>
              r == Err(NotAuthor)
    ensures r.Ok? ==>
              && |r.value| == |reviews| && Has(r.value, id)
              && r.value[id].value.place == reviews[id].value.place
              && r.value[id].value.author == requester.profile
              && r.value[id].value.content == (if content.Some? then Trim(content.value) else reviews[id].value.content)
              && (forall j | 0 <= j < |reviews| && j != id :: r.value[j] == reviews[j])
  {
    UpdateReviewWith(reviews, id, ProfileRow(requester.profile), content, partial)
  }

  /** An edited review stays listed under its place, with the new text, and
      no place's listing changes. */
  lemma UpdatedReviewIsListed(reviews: Table<Review>, id: nat, requester: Requester,
                              content: Option<string>, partial: bool, place: nat)
    requires UpdateReview(reviews, id, requester, content, partial).Ok?
    ensures var reviews' := UpdateReview(reviews, id, requester, content, partial).value;
            && ListReviews(reviews', place) == ListReviews(reviews, place)
            && (content.Some? ==> reviews'[id].value.content == Trim(content.value))
  {
    var reviews' := UpdateReview(reviews, id, requester, content, partial).value;
    forall j: nat ensures j in ListReviews(reviews', place) <==> j in ListReviews(reviews, place) {
      if j < |reviews| && j != id {
        assert reviews'[j] == reviews[j];
      }
    }
  }

  /** Delete comparing the requester's profile with the author. */
  function DeleteReview(reviews: Table<Review>, id: nat, requester: Requester): (r: Result<Table<Review>, ReviewError>)
    ensures r.Ok? <==> Has(reviews, id) && reviews[id].value.author == requester.profile
    ensures Has(reviews, id) && reviews[id].value.author != requester.profile ==> r == Err(NotAuthor)
    ensures r.Ok? ==> |r.value| == |reviews| && !Has(r.value, id) && (forall j | 0 <= j < |reviews| && j != id :: r.value[j] == reviews[j])
  {
    DeleteReviewWith(reviews, id, ProfileRow(requester.profile))
  }

  /** Once deleted by its author, a review no longer appears in its place's
      listing, and every other review of that place still does. */
  lemma DeletedReviewIsUnlisted(reviews: Table<Review>, id: nat, requester: Requester)
    requires DeleteReview(reviews, id, requester).Ok?
    ensures var reviews' := DeleteReview(reviews, id, requester).value;
            ListReviews(reviews', reviews[id].value.place) == ListReviews(reviews, reviews[id].value.place) - {id}
  {
    var reviews' := DeleteReview(reviews, id, requester).value;
    var place := reviews[id].value.place;
    forall j: nat ensures j in ListReviews(reviews', place) <==> j in ListReviews(reviews, place) - {id} {
      if j < |reviews| && j != id {
        assert reviews'[j] == reviews[j];
      }
    }
  }
}

=== FILE: signup.dfy ===
/** Account sign-up (`signup_view` in main/views/signup.py).

    The user table is a map from user name to stored password hash; the
    hashing function is a parameter. */
module Signup {
  import opened Common

  /** A member of the parsed body: a JSON string, or a value of another JSON
      type, kept as its Python `str()` form and its truthiness. */
  datatype Member = JsonString(s: string) | JsonOther(shown: string, truthy: bool)

  /** The request body as `json.loads` sees it: bytes that do not decode as
      text, text that is not JSON, JSON that is not an object, or an object. */
  datatype Body = NotText | Malformed | NotAnObject | Object(fields: map<string, Member>)

  /** `MethodNotAllowed` is the 405 reply; `MissingField`, `UsernameTaken`,
      `PasswordMismatch` and `InvalidJson` are 400 replies; `ServerError` is
      an exception the view does not catch (500): the decoding error of a body
      that is not text, `data.get` on a body that is not an object, or
      `make_password` of a password that is not a string. */
  datatype SignupError =
    | MethodNotAllowed
    | InvalidJson
    | ServerError
    | MissingField
    | UsernameTaken
    | PasswordMismatch

  datatype Reply = Reply(result: Result<(), SignupError>, users: map<string, string>)

  function Status(e: SignupError): (code: nat)
    ensures code in {400, 405, 500}
    ensures code == 400 <==> e !in {MethodNotAllowed, ServerError}
  {
    match e
    case MethodNotAllowed => 405
    case ServerError => 500
    case _ => 400
  }

  /** `data.get(key)`: the member's value, or `None` when it is absent. */
  function Get(fields: map<string, Member>, key: string): (r: Option<Member>)
    ensures r.Some? <==> key in fields
    ensures r.Some? ==> r.value == fields[key]
  {
    if key in fields then Some(fields[key]) else None
  }

  /** Python truthiness of a looked-up member: `None` and `""` are falsy, and
      any other value is as truthy as Python finds it. */
  predicate Filled(m: Option<Member>) {
    m.Some? && (match m.value case JsonString(s) => s != "" case JsonOther(_, truthy) => truthy)
  }

  /** The user name the text column stores and compares: the string itself,
      or the `str()` of any other value. */
  function StoredName(m: Member): string {
    match m
    case JsonString(s) => s
    case JsonOther(shown, _) => shown
  }

  /** The checks in source order, then the creation of the account. */
  function SignUp(users: map<string, string>, verb: HttpMethod, body: Body,
                  makePassword: string -> string): (r: Reply)
    ensures r.result.Err? ==> r.users == users
    ensures verb != POST ==> r.result == Err(MethodNotAllowed)
    ensures verb == POST && body.NotText? ==> r.result == Err(ServerError)
    ensures verb == POST && body.Malformed? ==> r.result == Err(InvalidJson)
    ensures verb == POST && body.NotAnObject? ==> r.result == Err(ServerError)
    ensures verb == POST && body.Object? ==>
              var f := body.fields;
              var (name, pw, confirm) := (Get(f, "username"), Get(f, "password"), Get(f, "password_confirm"));
              && (!Filled(name) || !Filled(pw) || !Filled(confirm) ==> r.result == Err(MissingField))
              && (Filled(name) && Filled(pw) && Filled(confirm) && StoredName(name.value) in users ==>
                    r.result == Err(UsernameTaken))
              && (Filled(name) && Filled(pw) && Filled(confirm) && StoredName(name.value) !in users && pw != confirm ==>
                    r.result == Err(PasswordMismatch))
              && (Filled(name) && Filled(pw) && StoredName(name.value) !in users && pw == confirm && pw.value.JsonOther? ==>
                    r.result == Err(ServerError))
    ensures r.result.Ok? <==>
              && verb == POST && body.Object?
              && Filled(Get(body.fields, "username")) && Filled(Get(body.fields, "password"))
              && StoredName(body.fields["username"]) !in users
              && Get(body.fields, "password") == Get(body.fields, "password_confirm")
              && body.fields["password"].JsonString?
    ensures r.result.Ok? ==>
              var name := StoredName(body.fields["username"]);
              && r.users.Keys == users.Keys + {name}
              && r.users[name] == makePassword(body.fields["password"].s)
              && (forall u | u in users :: r.users[u] == users[u])
  {
    if verb != POST then Reply(Err(MethodNotAllowed), users)
    else match body
      case NotText => Reply(Err(ServerError), users)
      case Malformed => Reply(Err(InvalidJson), users)
      case NotAnObject => Reply(Err(ServerError), users)
      case Object(f) =>
        var name := Get(f, "username");
        var pw := Get(f, "password");
        var confirm := Get(f, "password_confirm");
        if !Filled(name) || !Filled(pw) || !Filled(confirm) then Reply(Err(MissingField), users)
        else if StoredName(name.value) in users then Reply(Err(UsernameTaken), users)
        else if pw != confirm then Reply(Err(PasswordMismatch), users)
        else if pw.value.JsonOther? then Reply(Err(ServerError), users)
        else Reply(Ok(()), users[StoredName(name.value) := makePassword(pw.value.s)])
  }

  /** The same complete request sent twice: the first creates the account,
      the second is refused because the name is now taken. */
  lemma SecondSignUpRefused(users: map<string, string>, body: Body, makePassword: string -> string)
    requires SignUp(users, POST, body, makePassword).result.Ok?
    ensures var first := SignUp(users, POST, body, makePassword);
            SignUp(first.users, POST, body, makePassword) == Reply(Err(UsernameTaken), first.users)
  {
  }

  /** A user table only grows: no sign-up request removes or rewrites an
      existing account. */
  lemma ExistingAccountsKept(users: map<string, string>, verb: HttpMethod, body: Body,
                             makePassword: string -> string, u: string)
    requires u in users
    ensures var r := SignUp(users, verb, body, makePassword);
            u in r.users && r.users[u] == users[u]
  {
  }

  /** A concrete run: an empty confirmation is reported as a missing field
      even though the passwords also differ. */
  lemma MissingFieldReportedFirst(makePassword: string -> string)
    ensures var body := Object(map["username" := JsonString("kim"), "password" := JsonString("pw1"),
                                   "password_confirm" := JsonString("")]);
            SignUp(map["kim" := "h"], POST, body, makePassword).result == Err(MissingField)
  {
  }

  /** A confirmation that is a JSON number is truthy and never equals the
      password string, so the request is refused as a mismatch. */
  lemma NumericConfirmationMismatch(users: map<string, string>, name: string, pw: string, n: string,
                                    makePassword: string -> string)
    requires name != "" && pw != "" && name !in users
    ensures var body := Object(map["username" := JsonString(name), "password" := JsonString(pw),
                                   "password_confirm" := JsonOther(n, true)]);
            SignUp(users, POST, body, makePassword) == Reply(Err(PasswordMismatch), users)
  {
  }

  /** Matching passwords that are not strings pass every check of the view,
      and `make_password` then raises. */
  lemma NonStringPasswordFails(users: map<string, string>, name: string, n: string,
                               makePassword: string -> string)
    requires name != "" && name !in users
    ensures var body := Object(map["username" := JsonString(name), "password" := JsonOther(n, true),
                                   "password_confirm" := JsonOther(n, true)]);
            SignUp(users, POST, body, makePassword) == Reply(Err(ServerError), users)
  {
  }
}
